=== FILE: README.md ===
# PKPassMake in Dafny

PKPassMake turns a directory holding the files of an Apple Wallet pass into a
signed `.pkpass` archive. `signAndCompress` does this in four steps:

- It hashes every regular file under the directory with SHA-1 into
  `manifest.json`.
- It has a *signer* produce a detached signature of the manifest, stored as
  `signature`.
- It deletes whatever is at the destination path.
- It zips the listed files, the manifest and the signature into the
  destination.

There are two signers:

- `OpenSSLSigner` runs `openssl smime` with a certificate, a key and Apple's
  WWDR intermediate certificate. All three are found under a signing-home
  directory. The intermediate certificate is downloaded and cached if missing.
- `HttpSigner` POSTs the manifest to a remote signing service.

Six modules follow the source files; `Base`, `Files`, `Storage` and `Services` are shared vocabulary with no source file of their own:

| module | models |
|---|---|
| `Base` | shared vocabulary |
| `Files` | the file tree as a map from paths to nodes |
| `Extensions` | the `String` and `FileManager` helpers |
| `Storage` | the shared mutable file system, class `Disk` |
| `SHA1` | hex rendering of the digest |
| `Services` | the outside world as functions the caller supplies |
| `HttpSigning` | `HttpSigner` |
| `OpenSSLSigning` | `OpenSSLSigner` and its `openssl` helper |
| `Signing` | the `Signer` protocol |
| `SignAndCompress` | the pipeline |

Code that changes state step by step is modelled with methods over `Disk`, loops included. Each such method states its result, its new state and, where it downloads, its number of attempts as a specification function of its inputs and the old state (`ManifestOf`, `HomeDirectory`, `DownloadedCert`, `CaCertPlan`, `InitPlan`, `Signature`, `WithArchive`); lemmas state what the source promises about those functions. The pure code (hex rendering, trimming, argument quoting, the manifest as a function of the listing) is modelled with functions and lemmas.

Behaviour the model keeps from the code:

- The local signer's signature is the file `openssl` writes with `-out`, not its standard output.
- The manifest is serialised by a supplied function of the map. The source's JSON encoder does not sort keys, so no byte-identical serialisation is claimed.
- A run that fails after the manifest, signature or archive has been written leaves those files behind. No clean-up is modelled because the source does none.

## Model

| member | source | states |
|---|---|---|
| Files.Join | Sources/PKPassMake/SignAndCompress.swift:17-18 | appending a path component yields a path that starts with the directory and a slash, and ends with exactly the component |
| Files.JoinInjective | Sources/PKPassMake/OpenSSLSigner.swift:48-60 | two components of one directory name the same path iff they are equal, so `cert.pem`, `key.pem`, `cacert.pem`, `manifest.json` and `signature` are distinct files |
| Files.RemoveTree | Sources/PKPassMake/SignAndCompress.swift:42-44 | removing an item deletes it and everything below it; every other item stays, with its contents |
| Extensions.TrimStart | Sources/PKPassMake/Extensions.swift:5 | the result is a suffix of the input, everything dropped is whitespace, and it does not begin with whitespace |
| Extensions.TrimEnd | Sources/PKPassMake/Extensions.swift:5 | the result is a prefix of the input, everything dropped is whitespace, and it does not end with whitespace |
| Extensions.Trim | Sources/PKPassMake/Extensions.swift:5 | the trimmed string is a contiguous slice of the input with only whitespace on either side, and neither end is whitespace |
| Extensions.TrimmingToNil | Sources/PKPassMake/Extensions.swift:4-7 | nil iff the string is all whitespace and newlines; otherwise a non-empty slice of the input with no whitespace at either end |
| Extensions.TrimmingToNilIdempotent | Sources/PKPassMake/Extensions.swift:4-7 | trimming a non-nil result again returns it unchanged |
| Extensions.FileOrDirectory | Sources/PKPassMake/Extensions.swift:11-21 | `isFile` and `isDirectory` (predicates `IsFile`, `IsDirectory`) are never both true, and one of them holds exactly when the path exists |
| Extensions.FileSize | Sources/PKPassMake/Extensions.swift:23-30 | nil when the item does not exist; a regular file has the size of its contents, and a size is only ever that of a regular file |
| Extensions.FileSizeAfterWrite | Sources/PKPassMake/Extensions.swift:23-30 | right after data is written to a path its size reads back as the data's length; the sizes of other paths are unaffected |
| Storage.Disk.constructor | Sources/PKPassMake/SignAndCompress.swift:11 | the file manager starts from the given tree |
| Storage.Disk.Write | Sources/PKPassMake/SignAndCompress.swift:37 | writing data makes the path a regular file holding exactly that data, and changes nothing else |
| Storage.Disk.Remove | Sources/PKPassMake/SignAndCompress.swift:43 | `removeItem` leaves exactly the tree without the item and its descendants |
| Storage.Disk.CreateDirectory | Sources/PKPassMake/OpenSSLSigner.swift:64-66 | succeeds iff no regular file sits at the path itself (ancestors are not checked); on success the path is a directory, on failure nothing changes and the error names the path |
| SHA1.HexDigit | Sources/PKPassMake/SHA1.swift:11 | a nibble renders as one lower-case hex digit |
| SHA1.HexByte | Sources/PKPassMake/SHA1.swift:11 | `%02x` renders a byte as exactly two lower-case hex digits (zero padded) |
| SHA1.Hex | Sources/PKPassMake/SHA1.swift:9-12 | the joined rendering is twice as long as the digest and uses only `0-9a-f` |
| SHA1.HexAt | Sources/PKPassMake/SHA1.swift:11-12 | byte `i` is rendered at characters `2i` and `2i+1`, in order |
| SHA1.DigitValue | Sources/PKPassMake/SHA1.swift:11 | reading a hex digit gives the nibble that renders to it |
| SHA1.UnhexHexByte | Sources/PKPassMake/SHA1.swift:11 | the two digits of a byte read back as that byte |
| SHA1.UnhexHex | Sources/PKPassMake/SHA1.swift:9-12 | decoding the hex string gives back the digest bytes |
| SHA1.HexInjective | Sources/PKPassMake/SHA1.swift:11-12 | distinct digests never render to the same string |
| SHA1.Sha1 | Sources/PKPassMake/SHA1.swift:8-13 | `sha1` yields 40 lower-case hex characters that decode to the 20-byte digest of the data |
| Services.ReplyBody | Sources/PKPassMake/HttpSigner.swift:26-31 | a reply is accepted iff its status is in [200, 300), and then the body is taken verbatim; otherwise the error carries the status, or reports a failed exchange |
| HttpSigning.NewHttpSigner | Sources/PKPassMake/HttpSigner.swift:10-14 | construction succeeds iff the scheme is exactly `http` or `https`, storing URL and token unchanged; any other scheme traps |
| HttpSigning.PostRequest | Sources/PKPassMake/HttpSigner.swift:19-24 | a POST to the stored URL whose body is exactly the input, with an `Authorization` header holding the token iff one was given, and no other header |
| HttpSigning.Sign | Sources/PKPassMake/HttpSigner.swift:16-37 | the output is written with the reply body iff the status is 2xx; otherwise the error is raised and nothing is written |
| OpenSSLSigning.FirstDirectory | Sources/PKPassMake/OpenSSLSigner.swift:24-29 | the index found is a directory and every earlier candidate is not; none is found only when no candidate is a directory |
| OpenSSLSigning.FirstDirectoryIsFirst | Sources/PKPassMake/OpenSSLSigner.swift:24-29 | a directory preceded only by non-directories is the one the search picks |
| OpenSSLSigning.HomeDirectory | Sources/PKPassMake/OpenSSLSigner.swift:9-35 | a non-blank `PKPASSMAKE_HOME` wins; otherwise the first of `~/.pkpassmake`, `/opt/pkpassmake`, `/etc/pkpassmake` that is a directory, every earlier one not being one; none only when the variable is blank or unset and no candidate is a directory |
| OpenSSLSigning.ResolveHome | Sources/PKPassMake/OpenSSLSigner.swift:19-30 | the environment lookup and the `for ... break` loop settle on exactly `HomeDirectory` |
| OpenSSLSigning.SigningArgs | Sources/PKPassMake/OpenSSLSigner.swift:74-84 | exactly the eleven fixed `smime` arguments, followed by `-passin pass:<pw>` iff a password is set (length 13, else 11) |
| OpenSSLSigning.RunResult | Sources/PKPassMake/OpenSSLSigner.swift:146-149 | the helper succeeds iff `openssl` exited with status 0; otherwise the error carries the termination status |
| OpenSSLSigning.Escape | Sources/PKPassMake/OpenSSLSigner.swift:130 | escaping never shortens, is empty only for the empty argument, and leaves no double quote without a backslash before it |
| OpenSSLSigning.UnescapeEscape | Sources/PKPassMake/OpenSSLSigner.swift:130 | backslash-escaping the quotes of an argument loses nothing: unescaping restores it |
| OpenSSLSigning.QuoteArg | Sources/PKPassMake/OpenSSLSigner.swift:128-133 | an argument without whitespace is logged unchanged; one with whitespace is logged as `"` + its escaped form + `"`, and the part between the quotes unescapes to the argument |
| OpenSSLSigning.QuotedThenRest | Sources/PKPassMake/OpenSSLSigner.swift:130 | a quoted reader gives back an escaped argument, and exactly the text after its closing quote, unless the argument ends in a backslash |
| OpenSSLSigning.TokenThenRest | Sources/PKPassMake/OpenSSLSigner.swift:128-133 | one logged argument followed by a space or by nothing reads back as that argument, with the rest of the line untouched |
| OpenSSLSigning.ParseCommandLine | Sources/PKPassMake/OpenSSLSigner.swift:128-134 | the logged command line (`CommandLine`: the quoted arguments joined by single spaces) reads back as exactly the arguments, paths with spaces included, when no quoted argument ends in a backslash and no bare one starts with a double quote |
| OpenSSLSigning.TrailingBackslashAmbiguous | Sources/PKPassMake/OpenSSLSigner.swift:128-134 | the argument `a \` is logged as `"a \"`, which reads back as something else: the reading above needs its condition |
| OpenSSLSigning.FirstCandidate | Sources/PKPassMake/OpenSSLSigner.swift:97-125 | the index found is a URL whose download and conversion (`CandidateCert`) succeed, every earlier one failing; none only when all fail |
| OpenSSLSigning.FirstCandidateIsFirst | Sources/PKPassMake/OpenSSLSigner.swift:106-118 | a candidate that succeeds after only failures is the one the search picks |
| OpenSSLSigning.DownloadedCert | Sources/PKPassMake/OpenSSLSigner.swift:106-125 | the download yields a certificate iff some candidate succeeds; otherwise it fails with "Failed to download CA certificate" |
| OpenSSLSigning.DownloadedCertIsFirstSuccess | Sources/PKPassMake/OpenSSLSigner.swift:106-125 | a candidate that succeeds after only failures supplies the certificate, and the download stops after it |
| OpenSSLSigning.DownloadAttempts | Sources/PKPassMake/OpenSSLSigner.swift:107-118 | between one and six candidates are tried; every candidate before the last one tried failed, and when a certificate is obtained the last one tried succeeded, so the count is the first success's position, or six when none succeeds |
| OpenSSLSigning.DownloadCaCert | Sources/PKPassMake/OpenSSLSigner.swift:97-125 | the six WWDR URLs are tried in order (G6 to MPCA1G1); succeeds iff some candidate does; then the file holds exactly the first successful candidate's certificate and nothing else changed; otherwise nothing changed; the number tried is `DownloadAttempts` |
| OpenSSLSigning.WithSupportDirectory | Sources/PKPassMake/OpenSSLSigner.swift:63-66 | afterwards the support directory exists and every other path is as before |
| OpenSSLSigning.CaCertPlan | Sources/PKPassMake/OpenSSLSigner.swift:60-72 | a local `cacert.pem` is used with nothing changed; without one, an existing cached `cacert.pem` is used with only the support directory created and nothing downloaded; a file in the support directory's place fails with nothing changed; otherwise the support directory exists afterwards; a download happens exactly when the local, support-directory and cached files are all absent, and then a success leaves the downloaded certificate in the cache and a failure is the step's failure; only the support directory and the cached file can change, and the cached file is left exactly as it was when no download happens or the download fails |
| OpenSSLSigning.CaCertPlanSettles | Sources/PKPassMake/OpenSSLSigner.swift:60-72 | once the step has succeeded, taking it again picks the same file, changes nothing and downloads nothing |
| OpenSSLSigning.ResolveCaCert | Sources/PKPassMake/OpenSSLSigner.swift:60-72 | its result, new disk and number of download attempts are exactly those of `CaCertPlan` |
| OpenSSLSigning.InitPlan | Sources/PKPassMake/OpenSSLSigner.swift:40-85 | fails at the first failing check, in order: the home is a directory, then `cert.pem` is a file, then `key.pem` is a file, each with nothing changed; past them the disk and attempts are those of the CA-certificate step, whose failure is passed through; on success the arguments are the signing arguments for the chosen CA certificate and the given password |
| OpenSSLSigning.InitWithDirectory | Sources/PKPassMake/OpenSSLSigner.swift:40-85 | its result, new disk and number of download attempts are exactly those of `InitPlan` |
| OpenSSLSigning.Init | Sources/PKPassMake/OpenSSLSigner.swift:18-38 | fails with nothing changed when no signing home resolves; otherwise its outcome, disk and attempts are those of `InitPlan` for `HomeDirectory` and the trimmed `PKPASSMAKE_PASSWORD`, a blank value meaning no password |
| OpenSSLSigning.Sign | Sources/PKPassMake/OpenSSLSigner.swift:87-94 | runs `openssl` with the stored arguments plus `-out <output>` and the input on stdin; the output holds what it wrote iff it succeeded, and otherwise the disk is unchanged and the error is raised |
| Signing.Sign | Sources/PKPassMake/Signer.swift:3-5 | either signer writes only the output, and only on success, with the error passed through on failure |
| SignAndCompress.Destination | Sources/PKPassMake/SignAndCompress.swift:19 | the given destination, or else the source path with the extension `.pkpass` |
| SignAndCompress.RelativePath | Sources/PKPassMake/SignAndCompress.swift:28 | the intended relative path: a file below the source is the source joined with it |
| SignAndCompress.RemoveAllAbsent | Sources/PKPassMake/SignAndCompress.swift:28 | deleting every occurrence of a pattern that does not occur leaves the string as it is |
| SignAndCompress.AsWrittenAgrees | Sources/PKPassMake/SignAndCompress.swift:28 | when `source/` occurs in the file path only at the start (or nowhere), deleting every occurrence gives exactly the suffix after the prefix |
| SignAndCompress.AsWrittenMangledRepeat | Sources/PKPassMake/SignAndCompress.swift:28 | the file `/p/q/p/x` under `/p` gets the key `qx` as written, where `q/p/x` is meant |
| SignAndCompress.ManifestOf | Sources/PKPassMake/SignAndCompress.swift:21-33 | no key is `manifest.json` or `signature`, and every value is 40 hex characters that decode to a digest (that only those exact names are skipped, and every other listed file has an entry, is stated by `SignAndCompress.ManifestEntries`) |
| SignAndCompress.ManifestAsWrittenAgrees | Sources/PKPassMake/SignAndCompress.swift:21-33 | the manifest computed with the relative path as written (`RelativePathAsWritten`) equals `ManifestOf` when no listed path repeats `source/` after its start |
| SignAndCompress.ManifestAsWrittenMangles | Sources/PKPassMake/SignAndCompress.swift:28-53 | for `/p/q/p/x` under `/p` the manifest as written holds the key `qx`, which names no file under `/p`, while `ManifestOf` holds `q/p/x`, which does |
| SignAndCompress.ManifestEntries | Sources/PKPassMake/SignAndCompress.swift:24-33 | a key is in the manifest iff some listed regular file with a non-reserved relative path has it; its value is the SHA-1 of the last such file |
| SignAndCompress.ManifestMatchesFiles | Sources/PKPassMake/SignAndCompress.swift:28-32 | for a listing below the source, each key names a regular file under the source whose SHA-1 is the key's value |
| SignAndCompress.BuildManifest | Sources/PKPassMake/SignAndCompress.swift:21-33 | the loop fails iff a listed item has vanished, naming the first such item; otherwise it returns exactly the manifest of the listing |
| SignAndCompress.KeyOrder | Sources/PKPassMake/SignAndCompress.swift:47 | `Array(manifest.keys)` lists every key exactly once |
| SignAndCompress.EntryAt | Sources/PKPassMake/SignAndCompress.swift:49-53 | an entry is added iff the item exists and is not special; it carries the name, and a file entry holds the file's exact bytes |
| SignAndCompress.ArchiveFiles | Sources/PKPassMake/SignAndCompress.swift:46-54 | creates the archive, then adds the names in order, each read from the tree as it stands; succeeds iff every name was added, and otherwise reports the first that could not be |
| SignAndCompress.ApartKeepsItems | Sources/PKPassMake/SignAndCompress.swift:42-44 | removing a destination that neither contains nor lies inside the source keeps every item below the source |
| SignAndCompress.ThroughArchive | Sources/PKPassMake/SignAndCompress.swift:42-54 | with such a destination, the archive loop reads items below the source just as the signer left them |
| SignAndCompress.LoggedSignatureSize | Sources/PKPassMake/SignAndCompress.swift:38-40 | the signature size logged after signing is the length of the signature written |
| SignAndCompress.SignedReads | Sources/PKPassMake/SignAndCompress.swift:37-38 | after the manifest and the signature are written, the reserved names read back as those, and every other name as before |
| SignAndCompress.ArchiveReads | Sources/PKPassMake/SignAndCompress.swift:28-54 | every manifest key reads back as a file holding exactly the bytes of the source file it names, whose SHA-1 is its manifest value; the reserved names read back as the signed manifest bytes and the signature |
| SignAndCompress.LayoutFromNames | Sources/PKPassMake/SignAndCompress.swift:47-54 | entries read name by name from the keys and the two reserved names number the manifest size plus 2, with no duplicate path and the manifest and signature last |
| SignAndCompress.Compress | Sources/PKPassMake/SignAndCompress.swift:42-58 | an existing destination is cleared and rewritten with the archive; a failure is a read failure; on success the destination is returned and the archive has the layout; for a listing below the source and a separate destination, archiving succeeds, the archive verifies and its file entries hold the source files' bytes |
| SignAndCompress.ArchiveComplete | Sources/PKPassMake/SignAndCompress.swift:47-54 | a complete archive has that layout; for a listing below the source and a separate destination, every entry verifies against the manifest and every file entry holds the bytes of its source file as they stood before signing |
| SignAndCompress.SignAndCompress | Sources/PKPassMake/SignAndCompress.swift:8-63 | the full state after each outcome: a non-directory source fails with nothing touched; a vanished item fails with nothing written; the signer receives exactly the manifest bytes written to `manifest.json` and writes `signature`; a signer failure leaves only the manifest written; otherwise the destination is cleared and rewritten with the archive, and the destination is returned; for a listing below the source and a separate destination, archiving always succeeds, the archive verifies, and each file entry holds the bytes of its source file as they stood before signing |

## Left out

- Sources/PKPassSignServer/main.swift, the HTTP server around `sign`, is not part of this model.
- Subprocess execution, HTTP exchanges, the SHA-1 compression function, JSON encoding and ZIP compression are parameters (`Services.Externals`). Their internals are not modelled.
- Directory enumeration is an input list of paths in enumeration order, with hidden items already skipped. `.skipsHiddenFiles` is not modelled.
- Tilde expansion of `~/.pkpassmake`, the location of the application-support directory, and URL parsing are opaque strings.
- File writes always succeed; a failing `Data.write` is not modelled.
- `createDirectory(withIntermediateDirectories: true)` records only the final directory, not the intermediate ones; a regular file at an ancestor of the path, which makes the real call fail, is not a failure in the model.
- The 16 KiB cap on captured `openssl` output and the captured standard error are not modelled.
- Logging, including the `< [nB]` input-size suffix of the logged command line, is not modelled.
- Async scheduling, cancellation and `Sendable` are not modelled.
- Unicode grapheme clustering is not modelled: whitespace is judged per code point from a fixed table.
- `Data(contentsOf:)` failing on an existing regular file (Sources/PKPassMake/SignAndCompress.swift:31) is not modelled: reading a listed regular file always succeeds.
- `removeItem` failing (Sources/PKPassMake/SignAndCompress.swift:43) is not modelled: removal always succeeds.
- Symbolic links are not modelled apart from the `Special` node kind: `fileExists` follows links while `isRegularFileKey` does not, and a link to a directory is not a directory here.
- A failing `openssl` run is taken to leave its `-out` file as it was; a process that writes part of its output and then fails is not modelled. The "unchanged on failure" clauses of OpenSSLSigning.Sign, OpenSSLSigning.DownloadCaCert, OpenSSLSigning.ResolveCaCert and SignAndCompress.SignAndCompress rest on this.
- Files.Join: joining onto `/` gives `//name`, where `appending(component:)` gives `/name`; the model does not treat the root specially.
- SignAndCompress.ManifestOf: keys each file by the intended `RelativePath`, not by the deletion of every `source/` that line 28 performs; the same holds for the method that computes it, below.
- SignAndCompress.BuildManifest: computes keys with the intended `RelativePath`, not with the deletion of every `source/` that line 28 performs. SignAndCompress.ManifestAsWrittenAgrees shows the two manifests agree unless a listed path repeats `source/`; SignAndCompress.ManifestAsWrittenMangles shows the key the code produces when it does.
- SignAndCompress.SignAndCompress: uses the corrected manifest keys. As written, a file whose path repeats `source/` gets a mangled key and the archive step fails to find it, so the clause that archiving always succeeds holds only for the corrected keys.
- Extensions.FileSize: gives no size for directories and special files, although the source reports their size attribute, because only regular files have contents in the model.
- SignAndCompress.EntryAt: treats special files (sockets, devices, links) as entries that cannot be added. ZIPFoundation's handling of them is not modelled.
- SignAndCompress.SignAndCompress: does not state which item a failing `addEntry` names when the destination lies inside the source or around it. It states only that the error is a read failure.

## Findings

| source | as written | input that shows it | evidently intended | confidence | as-written member | corrected member |
|---|---|---|---|---|---|---|
| Sources/PKPassMake/SignAndCompress.swift:28 | the relative path deletes every occurrence of `source + "/"` in the file path | source `/p`, enumerated file `/p/q/p/x`: the manifest key becomes `qx`, and `addEntry(with: "qx", relativeTo: /p)` names no file | only the leading source prefix is removed, giving `q/p/x` | high, not executed | SignAndCompress.ManifestAsWrittenMangles | SignAndCompress.RelativePath |

=== FILE: base.dfy ===
/** Vocabulary shared by every part of the signing pipeline: bytes, paths,
    optional values, results, and the errors the pipeline can raise. */
module Base {

  /** One octet, as Swift's `UInt8`. */
  type byte = x: int | 0 <= x < 256

  /** A byte buffer, as Foundation's `Data`. */
  type Bytes = seq<byte>

  /** A POSIX path, as `URL.path` yields it. */
  type Path = string

  datatype Option<+T> = None | Some(value: T)

  /** How a child process ended (`Subprocess.TerminationStatus`). */
  datatype TerminationStatus = Exited(code: int) | UnhandledException(code: int)

  /** `TerminationStatus.isSuccess`: the process exited normally with status 0. */
  predicate IsSuccess(status: TerminationStatus)
  {
    status == Exited(0)
  }

  /** Every failure the pipeline can surface to its caller. */
  datatype Error =
    | SourceNotADirectory(source: Path)       // signAndCompress: the source is not a directory
    | CannotRead(path: Path)                  // an item vanished or cannot be read or archived
    | HomeNotFound                            // no signing-home directory could be resolved
    | NotADirectory(path: Path)               // the signing home is not a directory
    | NotAFile(path: Path)                    // cert.pem or key.pem is missing
    | CannotCreateDirectory(path: Path)       // the support directory cannot be created
    | CaCertUnavailable                       // every CA certificate candidate failed
    | UnexpectedStatus(code: int)             // an HTTP status outside [200, 300)
    | TransportFailure                        // the HTTP exchange itself failed
    | OpenSSLFailed(status: TerminationStatus) // openssl terminated unsuccessfully
    | LaunchFailed                            // openssl could not be started
    | Trap(scheme: Option<string>)            // a failed Swift `precondition`: the process aborts

  datatype Result<+T> = Ok(value: T) | Err(error: Error)

  datatype Outcome = Pass | Fail(error: Error)
}

=== FILE: extensions.dfy ===
/** The helpers the pipeline adds to `String` and `FileManager`: trimming an
    optional configuration value, and the three queries on the file system. */
module Extensions {
  import opened Base
  import opened Files

  /** Unicode `White_Space`: the characters of Foundation's
      `CharacterSet.whitespacesAndNewlines` and of `Character.isWhitespace`. */
  predicate IsWhitespace(c: char)
  {
    || '\t' <= c <= '\r'
    || c == ' '
    || c == '\U{85}'
    || c == '\U{A0}'
    || c == '\U{1680}'
    || '\U{2000}' <= c <= '\U{200A}'
    || c == '\U{2028}'
    || c == '\U{2029}'
    || c == '\U{202F}'
    || c == '\U{205F}'
    || c == '\U{3000}'
  }

  predicate AllWhitespace(s: string)
  {
    forall k :: 0 <= k < |s| ==> IsWhitespace(s[k])
  }

  /** `s` with its leading whitespace removed. */
  function TrimStart(s: string): (t: string)
    ensures |t| <= |s| && t == s[|s| - |t|..]
    ensures AllWhitespace(s[..|s| - |t|])
    ensures t == [] || !IsWhitespace(t[0])
    decreases |s|
  {
    if s != [] && IsWhitespace(s[0]) then
      var t := TrimStart(s[1..]);
      assert s[..|s| - |t|] == [s[0]] + s[1..][..|s| - 1 - |t|];
      t
    else s
  }

  /** `s` with its trailing whitespace removed. */
  function TrimEnd(s: string): (t: string)
    ensures |t| <= |s| && t == s[..|t|]
    ensures AllWhitespace(s[|t|..])
    ensures t == [] || !IsWhitespace(t[|t| - 1])
    decreases |s|
  {
    if s != [] && IsWhitespace(s[|s| - 1]) then
      var t := TrimEnd(s[..|s| - 1]);
      assert s[|t|..] == s[..|s| - 1][|t|..] + [s[|s| - 1]];
      t
    else s
  }

  /** `t` is `s[i..i + |t|]` and only whitespace surrounds it in `s`. */
  predicate SurroundedByWhitespace(s: string, i: int, t: string)
  {
    && 0 <= i <= |s| - |t|
    && t == s[i..i + |t|]
    && AllWhitespace(s[..i])
    && AllWhitespace(s[i + |t|..])
  }

  /** `trimmingCharacters(in: .whitespacesAndNewlines)`: the slice of `s` left
      after dropping whitespace at both ends. */
  function Trim(s: string): (t: string)
    ensures exists i :: SurroundedByWhitespace(s, i, t)
    ensures t == [] || (!IsWhitespace(t[0]) && !IsWhitespace(t[|t| - 1]))
  {
    var u := TrimStart(s);
    var t := TrimEnd(u);
    var i := |s| - |u|;
    assert u == s[i..];
    assert t == u[..|t|] == s[i..i + |t|];
    assert s[i + |t|..] == u[|t|..];
    assert SurroundedByWhitespace(s, i, t) by {
      assert AllWhitespace(s[..i]);
      assert AllWhitespace(s[i + |t|..]);
    }
    t
  }

  /** A string that is whitespace on both sides of an empty middle is all whitespace. */
  lemma WhitespaceAround(s: string, i: int)
    requires SurroundedByWhitespace(s, i, [])
    ensures AllWhitespace(s)
  {
    forall k | 0 <= k < |s| ensures IsWhitespace(s[k]) {
      if k < i { assert s[k] == s[..i][k]; } else { assert s[k] == s[i..][k - i]; }
    }
  }

  /** `String.trimmingToNil`: the trimmed string, or nil when nothing is left. */
  function TrimmingToNil(s: string): (r: Option<string>)
    ensures r.None? <==> AllWhitespace(s)
    ensures r.Some? ==> r.value != [] && !IsWhitespace(r.value[0]) && !IsWhitespace(r.value[|r.value| - 1])
    ensures r.Some? ==> exists i :: SurroundedByWhitespace(s, i, r.value)
  {
    var t := Trim(s);
    if t == [] then
      assert AllWhitespace(s) by {
        var i :| SurroundedByWhitespace(s, i, t);
        WhitespaceAround(s, i);
      }
      None
    else
      assert !AllWhitespace(s) by {
        var i :| SurroundedByWhitespace(s, i, t);
        assert s[i] == t[0];
      }
      Some(t)
  }

  /** Trimming a value that already has no surrounding whitespace keeps it. */
  lemma TrimmingToNilIdempotent(s: string)
    requires TrimmingToNil(s).Some?
    ensures TrimmingToNil(TrimmingToNil(s).value) == TrimmingToNil(s)
  {
    var t := TrimmingToNil(s).value;
    assert TrimStart(t) == t;
    assert TrimEnd(t) == t;
  }

  /** `FileManager.isFile`: something exists at `p` and it is not a directory. */
  predicate IsFile(t: FileTree, p: Path)
  {
    p in t && !t[p].Directory?
  }

  /** `FileManager.isDirectory`: a directory exists at `p`. */
  predicate IsDirectory(t: FileTree, p: Path)
  {
    p in t && t[p].Directory?
  }

  /** An existing path is a file or a directory, never both. */
  lemma FileOrDirectory(t: FileTree, p: Path)
    ensures !(IsFile(t, p) && IsDirectory(t, p))
    ensures p in t <==> IsFile(t, p) || IsDirectory(t, p)
  {
  }

  /** `FileManager.fileSize`: the size attribute, nil when it cannot be read. */
  function FileSize(t: FileTree, p: Path): (r: Option<nat>)
    ensures p !in t ==> r == None
    ensures r.Some? ==> p in t && t[p].Regular? && r.value == |t[p].data|
    ensures p in t && t[p].Regular? ==> r == Some(|t[p].data|)
  {
    if p in t && t[p].Regular? then Some(|t[p].data|) else None
  }

  /** Right after `data` is written to `p`, the size read back is the length
      of `data`, and sizes elsewhere are unaffected. */
  lemma FileSizeAfterWrite(t: FileTree, p: Path, data: Bytes, q: Path)
    ensures FileSize(t[p := Regular(data)], p) == Some(|data|)
    ensures q != p ==> FileSize(t[p := Regular(data)], q) == FileSize(t, q)
  {
  }
}

=== FILE: files.dfy ===
/** The file system as the pipeline sees it: a finite map from absolute paths
    to the kind (and, for regular files, the contents) of the item there. */
module Files {
  import opened Base

  /** `Special` is anything that exists and is neither a regular file nor a
      directory (a socket, a FIFO, a device). */
  datatype Node = Regular(data: Bytes) | Directory | Special

  type FileTree = map<Path, Node>

  /** `URL.appending(component:)` / `appendingPathComponent` on a directory path. */
  function Join(dir: Path, name: string): (p: Path)
    ensures dir + "/" <= p
    ensures p[|dir| + 1..] == name
  {
    dir + "/" + name
  }

  /** Two names in the same directory give the same path only when equal. */
  lemma JoinInjective(dir: Path, a: string, b: string)
    ensures Join(dir, a) == Join(dir, b) <==> a == b
  {
    assert a == Join(dir, a)[|dir| + 1..];
    assert b == Join(dir, b)[|dir| + 1..];
  }

  /** The items `FileManager.removeItem(at: p)` deletes: `p` itself and,
      when `p` is a directory, everything below it. */
  predicate Removed(p: Path, q: Path)
  {
    q == p || p + "/" <= q
  }

  function RemoveTree(t: FileTree, p: Path): (r: FileTree)
    ensures p !in r
    ensures forall q :: q in r <==> q in t && !Removed(p, q)
    ensures forall q :: q in r ==> r[q] == t[q]
  {
    map q | q in t && !Removed(p, q) :: t[q]
  }
}

=== FILE: http_signer.dfy ===
/** `HttpSigner`: signs by POSTing the input to a remote signing service and
    storing the reply body as the signature. */
module HttpSigning {
  import opened Base
  import opened Files
  import opened Storage
  import opened Services

  datatype HttpSignerConfig = HttpSignerConfig(url: Url, authorization: Option<string>)

  predicate SupportedScheme(url: Url)
  {
    url.scheme == Some("http") || url.scheme == Some("https")
  }

  /** A signer that passed the constructor's precondition. */
  type HttpSigner = s: HttpSignerConfig | SupportedScheme(s.url)
    witness HttpSignerConfig(Url(Some("https"), ""), None)

  /** `HttpSigner.init(url:authorization:)`. A failed `precondition` stops the
      process; the model returns `Trap` for it instead. */
  function NewHttpSigner(url: Url, authorization: Option<string>): (r: Result<HttpSigner>)
    ensures r.Ok? <==> url.scheme == Some("http") || url.scheme == Some("https")
    ensures r.Ok? ==> r.value.url == url && r.value.authorization == authorization
    ensures r.Err? ==> r.error == Trap(url.scheme)
  {
    if SupportedScheme(url) then Ok(HttpSignerConfig(url, authorization)) else Err(Trap(url.scheme))
  }

  /** The request `sign` sends. */
  function PostRequest(s: HttpSigner, input: Bytes): (req: Request)
    ensures req.url == s.url && SupportedScheme(req.url)
    ensures req.httpMethod == "POST" && req.body == Some(input)
    ensures "Authorization" in req.headers <==> s.authorization.Some?
    ensures s.authorization.Some? ==> req.headers["Authorization"] == s.authorization.value
    ensures req.headers.Keys <= {"Authorization"}
  {
    var headers := if s.authorization.Some? then map["Authorization" := s.authorization.value] else map[];
    Request(s.url, "POST", Some(input), headers)
  }

  /** What `sign` writes to its output, or why it fails. */
  function Signature(s: HttpSigner, input: Bytes, x: Externals): Result<Bytes>
  {
    ReplyBody(x.fetch(PostRequest(s, input)))
  }

  /** `HttpSigner.sign(input:output:)`: builds the request field by field,
      sends it, and writes the body of a 2xx reply to `output`; any other
      reply is an error and nothing is written. */
  method Sign(disk: Disk, s: HttpSigner, input: Bytes, output: Path, x: Externals) returns (r: Outcome)
    modifies disk
    ensures r.Pass? <==> Signature(s, input, x).Ok?
    ensures r.Fail? ==> r.error == Signature(s, input, x).error
    ensures disk.nodes == if r.Pass? then old(disk.nodes)[output := Regular(Signature(s, input, x).value)]
                          else old(disk.nodes)
  {
    var request := NewRequest(s.url);
    request := request.(httpMethod := "POST");
    request := request.(body := Some(input));
    if s.authorization.Some? {
      request := request.(headers := request.headers["Authorization" := s.authorization.value]);
    }
    assert request == PostRequest(s, input);
    var reply := x.fetch(request);
    var body := ReplyBody(reply);
    if body.Err? {
      return Fail(body.error);
    }
    disk.Write(output, body.value);
    r := Pass;
  }
}

=== FILE: openssl_signer.dfy ===
/** `OpenSSLSigner`: signs locally by running `openssl smime` with a
    certificate, a private key and Apple's WWDR intermediate certificate,
    all found under a signing-home directory. */
module OpenSSLSigning {
  import opened Base
  import opened Files
  import opened Extensions
  import opened Storage
  import opened Services

  /** The conventional signing-home locations, tried in this order. */
  const SupportedDirectories: seq<Path> := ["~/.pkpassmake", "/opt/pkpassmake", "/etc/pkpassmake"]

  const HomeVariable: string := "PKPASSMAKE_HOME"
  const PasswordVariable: string := "PKPASSMAKE_PASSWORD"

  /** The signing context built once by the initialisers: the home directory
      and the `openssl` argument vector, without the output file. */
  datatype OpenSSLSigner = OpenSSLSigner(directory: Path, args: seq<string>)

  // ---------------------------------------------------------------------------
  // Signing-home resolution (`init()`)

  /** `env[name]?.trimmingToNil`. */
  function EnvValue(env: map<string, string>, name: string): Option<string>
  {
    if name in env then TrimmingToNil(env[name]) else None
  }

  /** The index of the first candidate that is a directory. */
  function FirstDirectory(t: FileTree, candidates: seq<Path>): (r: Option<nat>)
    ensures r.Some? ==> r.value < |candidates| && IsDirectory(t, candidates[r.value])
    ensures r.Some? ==> forall j :: 0 <= j < r.value ==> !IsDirectory(t, candidates[j])
    ensures r.None? ==> forall j :: 0 <= j < |candidates| ==> !IsDirectory(t, candidates[j])
  {
    if candidates == [] then None
    else if IsDirectory(t, candidates[0]) then Some(0)
    else match FirstDirectory(t, candidates[1..])
      case None => None
      case Some(i) => Some(i + 1)
  }

  /** The signing home `init()` settles on, if any: a non-blank
      `PKPASSMAKE_HOME` wins; otherwise the first supported directory that
      exists; none when neither gives one. */
  function HomeDirectory(env: map<string, string>, t: FileTree): (home: Option<Path>)
    ensures EnvValue(env, HomeVariable).Some? ==> home == EnvValue(env, HomeVariable)
    ensures EnvValue(env, HomeVariable).None? && home.Some? ==>
      exists i :: && 0 <= i < |SupportedDirectories|
                  && home.value == SupportedDirectories[i]
                  && IsDirectory(t, home.value)
                  && forall j :: 0 <= j < i ==> !IsDirectory(t, SupportedDirectories[j])
    ensures home.None? ==>
      && EnvValue(env, HomeVariable).None?
      && forall j :: 0 <= j < |SupportedDirectories| ==> !IsDirectory(t, SupportedDirectories[j])
  {
    match EnvValue(env, HomeVariable)
    case Some(d) => Some(d)
    case None =>
      match FirstDirectory(t, SupportedDirectories)
      case Some(i) => Some(SupportedDirectories[i])
      case None => None
  }

  /** The first half of `init()`: a non-blank `PKPASSMAKE_HOME` wins;
      otherwise the first supported directory that exists is taken. */
  method ResolveHome(env: map<string, string>, t: FileTree) returns (home: Option<Path>)
    ensures home == HomeDirectory(env, t)
  {
    home := EnvValue(env, HomeVariable);
    if home == None {
      for i := 0 to |SupportedDirectories|
        invariant home == None
        invariant forall j :: 0 <= j < i ==> !IsDirectory(t, SupportedDirectories[j])
      {
        if IsDirectory(t, SupportedDirectories[i]) {
          assert FirstDirectory(t, SupportedDirectories) == Some(i) by {
            FirstDirectoryIsFirst(t, SupportedDirectories, i);
          }
          home := Some(SupportedDirectories[i]);
          break;
        }
      }
    }
  }

  /** Any directory preceded only by non-directories is the first one. */
  lemma {:induction false} FirstDirectoryIsFirst(t: FileTree, candidates: seq<Path>, i: nat)
    requires i < |candidates| && IsDirectory(t, candidates[i])
    requires forall j :: 0 <= j < i ==> !IsDirectory(t, candidates[j])
    ensures FirstDirectory(t, candidates) == Some(i)
  {
    if i > 0 {
      FirstDirectoryIsFirst(t, candidates[1..], i - 1);
    }
  }

  // ---------------------------------------------------------------------------
  // Configuration files (`init(directory:password:)`)

  function CertFile(directory: Path): Path { Join(directory, "cert.pem") }
  function KeyFile(directory: Path): Path { Join(directory, "key.pem") }
  function LocalCaCert(directory: Path): Path { Join(directory, "cacert.pem") }
  function SupportDirectory(appSupport: Path): Path { Join(appSupport, "pkpassmake") }
  function CachedCaCert(appSupport: Path): Path { Join(SupportDirectory(appSupport), "cacert.pem") }

  /** The three checks of `init(directory:)` all hold. */
  predicate HomeReady(t: FileTree, directory: Path)
  {
    IsDirectory(t, directory) && IsFile(t, CertFile(directory)) && IsFile(t, KeyFile(directory))
  }

  /** The CA certificate location: `cacert.pem` beside the keys when it is a
      file, otherwise the copy cached in the application-support directory. */
  function CaCertChoice(t: FileTree, directory: Path, appSupport: Path): Path
  {
    if IsFile(t, LocalCaCert(directory)) then LocalCaCert(directory) else CachedCaCert(appSupport)
  }

  /** The `openssl smime` arguments fixed at construction. */
  function SigningArgs(caCert: Path, cert: Path, key: Path, password: Option<string>): (args: seq<string>)
    ensures |args| == if password.Some? then 13 else 11
    ensures args[..11] == ["smime", "-binary", "-sign", "-certfile", caCert, "-signer", cert,
                           "-inkey", key, "-outform", "DER"]
    ensures password.Some? ==> args[11..] == ["-passin", "pass:" + password.value]
  {
    var args := ["smime", "-binary", "-sign", "-certfile", caCert, "-signer", cert,
                 "-inkey", key, "-outform", "DER"];
    if password.Some? then args + ["-passin", "pass:" + password.value] else args
  }

  // ---------------------------------------------------------------------------
  // The `openssl` helper

  /** The success check of `openssl(_:stdin:)`: the run fails unless the tool
      exited with status 0; on success the result is what it wrote to `-out`. */
  function RunResult(outcome: ProcessOutcome): (r: Result<Bytes>)
    ensures r.Ok? <==> outcome.Terminated? && IsSuccess(outcome.status)
    ensures r.Ok? ==> r.value == outcome.written
    ensures outcome.Terminated? && r.Err? ==> r.error == OpenSSLFailed(outcome.status)
    ensures outcome.NotLaunched? ==> r.error == LaunchFailed
  {
    match outcome
    case NotLaunched => Err(LaunchFailed)
    case Terminated(status, written) =>
      if IsSuccess(status) then Ok(written) else Err(OpenSSLFailed(status))
  }

  predicate HasWhitespace(s: string)
  {
    exists k :: 0 <= k < |s| && IsWhitespace(s[k])
  }

  /** `replacingOccurrences(of: "\"", with: "\\\"")`: every double quote of
      the result is preceded by a backslash. */
  function Escape(s: string): (e: string)
    ensures |e| >= |s|
    ensures e == [] <==> s == []
    ensures forall k :: 0 <= k < |e| && e[k] == '"' ==> 0 < k && e[k - 1] == '\\'
  {
    if s == [] then []
    else
      var head := if s[0] == '"' then ['\\', '"'] else [s[0]];
      var e := head + Escape(s[1..]);
      assert forall k :: |head| <= k < |e| ==> e[k] == Escape(s[1..])[k - |head|];
      e
  }

  /** Reads an escaped argument back: `\"` becomes `"`. */
  function Unescape(e: string): string
  {
    if e == [] then []
    else if |e| >= 2 && e[0] == '\\' && e[1] == '"' then ['"'] + Unescape(e[2..])
    else [e[0]] + Unescape(e[1..])
  }

  /** Escaping loses nothing: unescaping gives the argument back. */
  lemma {:induction false} UnescapeEscape(s: string)
    ensures Unescape(Escape(s)) == s
  {
    if s != [] {
      UnescapeEscape(s[1..]);
      var rest := Escape(s[1..]);
      if s[0] == '"' {
        assert Escape(s) == ['\\', '"'] + rest;
        assert Escape(s)[2..] == rest;
      } else {
        assert Escape(s) == [s[0]] + rest;
        assert rest == [] || rest[0] != '"';
        assert Escape(s)[1..] == rest;
      }
      assert [s[0]] + s[1..] == s;
    }
  }

  /** How `openssl(_:stdin:)` shows one argument in its log line: as it is,
      unless it holds whitespace, in which case it is escaped and put between
      double quotes. */
  function QuoteArg(arg: string): (q: string)
    ensures !HasWhitespace(arg) ==> q == arg
    ensures HasWhitespace(arg) ==> q == "\"" + Escape(arg) + "\""
    ensures HasWhitespace(arg) ==> |q| >= 2 && q[0] == '"' && q[|q| - 1] == '"' && Unescape(q[1..|q| - 1]) == arg
  {
    if HasWhitespace(arg) then
      var q := "\"" + Escape(arg) + "\"";
      assert q[1..|q| - 1] == Escape(arg);
      UnescapeEscape(arg);
      q
    else arg
  }

  /** The arguments as the log line shows them, separated by single spaces. */
  function CommandLine(args: seq<string>): string
  {
    if |args| == 0 then ""
    else if |args| == 1 then QuoteArg(args[0])
    else QuoteArg(args[0]) + " " + CommandLine(args[1..])
  }

  // A reader for the log line, the independent definition the quoting is
  // checked against: a token is a run of non-spaces, or a double-quoted
  // string in which `\"` stands for `"`; tokens are separated by one space.

  /** Reads up to the next space. */
  function ReadWord(s: string): (r: (string, string))
    ensures s == r.0 + r.1
    ensures r.1 == [] || r.1[0] == ' '
  {
    if s == [] || s[0] == ' ' then ("", s)
    else
      var r := ReadWord(s[1..]);
      assert s == [s[0]] + s[1..] == [s[0]] + (r.0 + r.1) == ([s[0]] + r.0) + r.1;
      ([s[0]] + r.0, r.1)
  }

  /** Reads a quoted string whose opening quote has been consumed, up to and
      including the closing quote. */
  function ReadQuoted(s: string): (r: (string, string))
    ensures |r.1| <= |s|
  {
    if s == [] then ("", [])
    else if |s| >= 2 && s[0] == '\\' && s[1] == '"' then
      var r := ReadQuoted(s[2..]);
      (['"'] + r.0, r.1)
    else if s[0] == '"' then ("", s[1..])
    else
      var r := ReadQuoted(s[1..]);
      ([s[0]] + r.0, r.1)
  }

  function ReadToken(s: string): (r: (string, string))
    ensures |r.1| <= |s|
  {
    if s != [] && s[0] == '"' then ReadQuoted(s[1..]) else ReadWord(s)
  }

  /** Splits a log line into its arguments. */
  function ParseArgs(s: string): (args: seq<string>)
    ensures |args| >= 1
    decreases |s|
  {
    var r := ReadToken(s);
    if r.1 == [] then [r.0] else [r.0] + ParseArgs(r.1[1..])
  }

  /** A proof step for `ParseCommandLine`, kept apart so that its sequence
      reasoning stays out of the larger proof: a line whose first token is
      the whole line parses as that one token. */
  lemma ParseLast(s: string, token: string)
    requires ReadToken(s + "") == (token, "")
    ensures ParseArgs(s) == [token]
  {
    assert s + "" == s;
  }

  /** A proof step for `ParseCommandLine`, kept apart for the same reason: a
      token followed by a space and a tail parses as that token followed by
      the tail's arguments. */
  lemma ParseThenSpace(s: string, token: string, tail: string)
    requires ReadToken(s + (" " + tail)) == (token, " " + tail)
    ensures ParseArgs(s + " " + tail) == [token] + ParseArgs(tail)
  {
    assert s + " " + tail == s + (" " + tail);
    assert (" " + tail)[1..] == tail;
  }

  /** An argument the log line shows unambiguously: a quoted one must not end
      in a backslash (which would escape the closing quote), and a bare one
      must not start with a double quote. */
  predicate Unambiguous(arg: string)
  {
    if HasWhitespace(arg) then arg[|arg| - 1] != '\\' else arg == [] || arg[0] != '"'
  }

  lemma {:induction false} WordThenRest(a: string, rest: string)
    requires forall k :: 0 <= k < |a| ==> a[k] != ' '
    requires rest == [] || rest[0] == ' '
    ensures ReadWord(a + rest) == (a, rest)
  {
    if a != [] {
      WordThenRest(a[1..], rest);
      assert (a + rest)[1..] == a[1..] + rest;
      assert [a[0]] + a[1..] == a;
    } else {
      assert a + rest == rest;
    }
  }

  lemma {:induction false} QuotedThenRest(a: string, rest: string)
    requires a == [] || a[|a| - 1] != '\\'
    ensures ReadQuoted(Escape(a) + "\"" + rest) == (a, rest)
  {
    var s := Escape(a) + "\"" + rest;
    if a == [] {
      assert s == "\"" + rest;
      assert s[1..] == rest;
    } else {
      var tail := Escape(a[1..]) + "\"" + rest;
      QuotedThenRest(a[1..], rest);
      if a[0] == '"' {
        assert s == ['\\', '"'] + tail;
        assert s[2..] == tail;
      } else {
        assert s == [a[0]] + tail;
        assert s[1..] == tail;
        if a[0] == '\\' {
          assert a[1..] != [];
          assert Escape(a[1..])[0] != '"';
          assert s[1] == Escape(a[1..])[0];
        }
      }
      assert [a[0]] + a[1..] == a;
    }
  }

  lemma {:induction false} QuotedTokenThenRest(arg: string, rest: string)
    requires HasWhitespace(arg) && arg[|arg| - 1] != '\\'
    ensures ReadToken("\"" + Escape(arg) + "\"" + rest) == (arg, rest)
  {
    var s := "\"" + Escape(arg) + "\"" + rest;
    assert s == "\"" + (Escape(arg) + "\"" + rest);
    assert s[1..] == Escape(arg) + "\"" + rest;
    QuotedThenRest(arg, rest);
  }

  lemma {:induction false} BareTokenThenRest(arg: string, rest: string)
    requires !HasWhitespace(arg) && (arg == [] || arg[0] != '"')
    requires rest == [] || rest[0] == ' '
    ensures ReadToken(arg + rest) == (arg, rest)
  {
    forall k | 0 <= k < |arg| ensures arg[k] != ' ' {
      assert !IsWhitespace(arg[k]);
    }
    WordThenRest(arg, rest);
  }

  /** One logged argument followed by a separator (or nothing) reads back as
      that argument. */
  lemma {:induction false} TokenThenRest(arg: string, rest: string)
    requires Unambiguous(arg)
    requires rest == [] || rest[0] == ' '
    ensures ReadToken(QuoteArg(arg) + rest) == (arg, rest)
  {
    if HasWhitespace(arg) {
      QuotedTokenThenRest(arg, rest);
    } else {
      BareTokenThenRest(arg, rest);
    }
  }

  /** The log line of `openssl(_:stdin:)` reads back as exactly the arguments
      when each of them is shown unambiguously. */
  lemma {:induction false} ParseCommandLine(args: seq<string>)
    requires |args| >= 1
    requires forall i :: 0 <= i < |args| ==> Unambiguous(args[i])
    ensures ParseArgs(CommandLine(args)) == args
  {
    if |args| == 1 {
      TokenThenRest(args[0], "");
      ParseLast(QuoteArg(args[0]), args[0]);
    } else {
      var tail := CommandLine(args[1..]);
      ParseCommandLine(args[1..]);
      TokenThenRest(args[0], " " + tail);
      ParseThenSpace(QuoteArg(args[0]), args[0], tail);
      assert args == [args[0]] + args[1..];
    }
  }

  /** A backslash at the end of an argument with whitespace escapes the
      closing quote: the log line `"a \"` of the argument `a \` does not read
      back. */
  lemma TrailingBackslashAmbiguous()
    ensures ParseArgs(CommandLine(["a \\"])) != ["a \\"]
  {
    var arg := "a \\";
    assert IsWhitespace(arg[1]);
    var line := CommandLine([arg]);
    assert line == ['"', 'a', ' ', '\\', '"'];
    var closing: string := ['\\', '"'];
    assert ReadQuoted(closing[2..]) == ([], []);
    assert ReadQuoted(closing) == (['"'], []) by {
      assert |closing| == 2 && closing[0] == '\\' && closing[1] == '"';
      assert ['"'] + [] == ['"'];
    }
    assert ReadQuoted([' '] + closing) == ([' ', '"'], []) by {
      assert ([' '] + closing)[0] == ' ';
      assert ([' '] + closing)[1..] == closing;
      assert [' '] + ['"'] == [' ', '"'];
    }
    assert ReadQuoted(line[1..]) == (['a', ' ', '"'], []) by {
      assert line[1..] == ['a'] + ([' '] + closing);
      assert line[1..][0] == 'a';
      assert line[1..][1..] == [' '] + closing;
      assert ['a'] + [' ', '"'] == ['a', ' ', '"'];
    }
  }

  // ---------------------------------------------------------------------------
  // Downloading the CA certificate (`downloadCaCert(to:)`)

  /** Where Apple publishes the certificate `name`. */
  function CaCertUrl(name: string): Url
  {
    Url(Some("https"), "//www.apple.com/certificateauthority/" + name)
  }

  /** Apple's WWDR certificates, newest generation first. */
  const CaCertUrls: seq<Url> := [
    CaCertUrl("AppleWWDRCAG6.cer"), CaCertUrl("AppleWWDRCAG5.cer"), CaCertUrl("AppleWWDRCAG4.cer"),
    CaCertUrl("AppleWWDRCAG3.cer"), CaCertUrl("AppleWWDRCAG2.cer"), CaCertUrl("AppleWWDRMPCA1G1.cer")]

  /** `openssl x509` converting the DER download into the PEM file `file`. */
  function ConvertArgs(file: Path): seq<string>
  {
    ["x509", "-inform", "DER", "-outform", "PEM", "-out", file]
  }

  /** One candidate: GET it, require a 2xx status, convert it to PEM. */
  function CandidateCert(x: Externals, url: Url, file: Path): Result<Bytes>
  {
    match ReplyBody(x.fetch(NewRequest(url)))
    case Err(e) => Err(e)
    case Ok(der) => RunResult(x.run(ConvertArgs(file), der))
  }

  /** The index of the first candidate URL that yields a certificate. */
  function FirstCandidate(x: Externals, file: Path, urls: seq<Url>): (r: Option<nat>)
    ensures r.Some? ==> r.value < |urls| && CandidateCert(x, urls[r.value], file).Ok?
    ensures r.Some? ==> forall j :: 0 <= j < r.value ==> CandidateCert(x, urls[j], file).Err?
    ensures r.None? ==> forall j :: 0 <= j < |urls| ==> CandidateCert(x, urls[j], file).Err?
  {
    if urls == [] then None
    else if CandidateCert(x, urls[0], file).Ok? then Some(0)
    else match FirstCandidate(x, file, urls[1..])
      case None => None
      case Some(i) => Some(i + 1)
  }

  /** Any candidate that succeeds after only failures is the one the search picks. */
  lemma {:induction false} FirstCandidateIsFirst(x: Externals, file: Path, urls: seq<Url>, i: nat)
    requires i < |urls| && CandidateCert(x, urls[i], file).Ok?
    requires forall j :: 0 <= j < i ==> CandidateCert(x, urls[j], file).Err?
    ensures FirstCandidate(x, file, urls) == Some(i)
  {
    if i > 0 {
      FirstCandidateIsFirst(x, file, urls[1..], i - 1);
    }
  }

  /** What `downloadCaCert(to: file)` leaves in `file`: the converted
      certificate of the first candidate that succeeds, or an error when all
      of them fail. */
  function DownloadedCert(x: Externals, file: Path): (r: Result<Bytes>)
    ensures r.Ok? <==> exists i :: 0 <= i < |CaCertUrls| && CandidateCert(x, CaCertUrls[i], file).Ok?
    ensures r.Err? ==> r.error == CaCertUnavailable
  {
    match FirstCandidate(x, file, CaCertUrls)
    case Some(i) => Ok(CandidateCert(x, CaCertUrls[i], file).value)
    case None => Err(CaCertUnavailable)
  }

  /** A candidate that succeeds after only failures supplies the certificate. */
  lemma DownloadedCertIsFirstSuccess(x: Externals, file: Path, i: nat)
    requires i < |CaCertUrls| && CandidateCert(x, CaCertUrls[i], file).Ok?
    requires forall j :: 0 <= j < i ==> CandidateCert(x, CaCertUrls[j], file).Err?
    ensures DownloadedCert(x, file) == CandidateCert(x, CaCertUrls[i], file)
    ensures DownloadAttempts(x, file) == i + 1
  {
    FirstCandidateIsFirst(x, file, CaCertUrls, i);
  }

  /** How many candidates `downloadCaCert(to: file)` tries. */
  function DownloadAttempts(x: Externals, file: Path): (n: nat)
    ensures 1 <= n <= |CaCertUrls|
    ensures n < |CaCertUrls| ==> DownloadedCert(x, file).Ok?
    ensures forall j :: 0 <= j < n - 1 ==> CandidateCert(x, CaCertUrls[j], file).Err?
    ensures DownloadedCert(x, file).Ok? ==> CandidateCert(x, CaCertUrls[n - 1], file).Ok?
  {
    match FirstCandidate(x, file, CaCertUrls)
    case Some(i) => i + 1
    case None => |CaCertUrls|
  }

  /** Tries the candidates in order, stops at the first that succeeds, and
      fails only when all of them failed; a failed candidate leaves the disk
      as it was. `attempts` counts the candidates tried. */
  method DownloadCaCert(disk: Disk, file: Path, x: Externals) returns (r: Outcome, attempts: nat)
    modifies disk
    ensures r.Pass? <==> DownloadedCert(x, file).Ok?
    ensures r.Fail? ==> r.error == DownloadedCert(x, file).error
    ensures disk.nodes == if r.Pass? then old(disk.nodes)[file := Regular(DownloadedCert(x, file).value)]
                          else old(disk.nodes)
    ensures attempts == DownloadAttempts(x, file)
    ensures forall j :: 0 <= j < attempts - 1 ==> CandidateCert(x, CaCertUrls[j], file).Err?
  {
    attempts := 0;
    while attempts < |CaCertUrls|
      invariant 0 <= attempts <= |CaCertUrls|
      invariant forall j :: 0 <= j < attempts ==> CandidateCert(x, CaCertUrls[j], file).Err?
      invariant disk.nodes == old(disk.nodes)
    {
      var url := CaCertUrls[attempts];
      attempts := attempts + 1;
      var der := ReplyBody(x.fetch(NewRequest(url)));
      if der.Ok? {
        var converted := RunResult(x.run(ConvertArgs(file), der.value));
        if converted.Ok? {
          FirstCandidateIsFirst(x, file, CaCertUrls, attempts - 1);
          disk.Write(file, converted.value);
          return Pass, attempts;
        }
      }
    }
    r := Fail(CaCertUnavailable);
  }

  /** What a step of an initialiser yields: its result, the tree after it, and
      how many CA-certificate candidates it tried. */
  datatype Setup<T> = Setup(result: Result<T>, tree: FileTree, attempts: nat)

  /** The tree once the support directory exists (nothing to do if it does). */
  function WithSupportDirectory(t: FileTree, appSupport: Path): (r: FileTree)
    ensures IsDirectory(r, SupportDirectory(appSupport))
    ensures forall p :: p != SupportDirectory(appSupport) ==> (p in r <==> p in t) && (p in t ==> r[p] == t[p])
  {
    if IsDirectory(t, SupportDirectory(appSupport)) then t else t[SupportDirectory(appSupport) := Directory]
  }

  /** The CA-certificate step of `init(directory:)`:
      - a local `cacert.pem` is used untouched;
      - otherwise the support directory is created if missing (failing when a
        file is in the way) and the cached copy is used;
      - the copy is downloaded exactly when it is missing too, and the
        download's failure is the step's failure. */
  function CaCertPlan(t: FileTree, directory: Path, appSupport: Path, x: Externals): (s: Setup<Path>)
    ensures IsFile(t, LocalCaCert(directory)) ==> s == Setup(Ok(LocalCaCert(directory)), t, 0)
    ensures !IsFile(t, LocalCaCert(directory)) && IsFile(t, SupportDirectory(appSupport)) ==>
              s == Setup(Err(CannotCreateDirectory(SupportDirectory(appSupport))), t, 0)
    ensures !IsFile(t, LocalCaCert(directory)) && !IsFile(t, SupportDirectory(appSupport)) ==>
              IsDirectory(s.tree, SupportDirectory(appSupport))
    ensures !IsFile(t, LocalCaCert(directory)) && !IsFile(t, SupportDirectory(appSupport)) &&
            IsFile(t, CachedCaCert(appSupport)) ==>
              s == Setup(Ok(CachedCaCert(appSupport)), WithSupportDirectory(t, appSupport), 0)
    ensures s.attempts > 0 <==>
              && !IsFile(t, LocalCaCert(directory))
              && !IsFile(t, SupportDirectory(appSupport))
              && !IsFile(t, CachedCaCert(appSupport))
    ensures s.attempts > 0 ==>
              && s.attempts == DownloadAttempts(x, CachedCaCert(appSupport))
              && (s.result.Ok? <==> DownloadedCert(x, CachedCaCert(appSupport)).Ok?)
              && (s.result.Ok? ==> CachedCaCert(appSupport) in s.tree &&
                                   s.tree[CachedCaCert(appSupport)] == Regular(DownloadedCert(x, CachedCaCert(appSupport)).value))
              && (s.result.Err? ==> s.result.error == CaCertUnavailable)
    ensures s.result.Ok? ==> s.result.value == CaCertChoice(t, directory, appSupport) && IsFile(s.tree, s.result.value)
    ensures forall p :: p != SupportDirectory(appSupport) && p != CachedCaCert(appSupport) ==>
              (p in s.tree <==> p in t) && (p in t ==> s.tree[p] == t[p])
    ensures s.attempts == 0 || s.result.Err? ==>
              && (CachedCaCert(appSupport) in s.tree <==> CachedCaCert(appSupport) in t)
              && (CachedCaCert(appSupport) in t ==> s.tree[CachedCaCert(appSupport)] == t[CachedCaCert(appSupport)])
  {
    var local := LocalCaCert(directory);
    var supportDir := SupportDirectory(appSupport);
    var cached := CachedCaCert(appSupport);
    assert cached != supportDir by {
      assert |cached| > |supportDir|;
    }
    if IsFile(t, local) then Setup(Ok(local), t, 0)
    else if IsFile(t, supportDir) then Setup(Err(CannotCreateDirectory(supportDir)), t, 0)
    else
      var ready := WithSupportDirectory(t, appSupport);
      if IsFile(ready, cached) then Setup(Ok(cached), ready, 0)
      else match DownloadedCert(x, cached)
        case Ok(pem) => Setup(Ok(cached), ready[cached := Regular(pem)], DownloadAttempts(x, cached))
        case Err(e) => Setup(Err(e), ready, DownloadAttempts(x, cached))
  }

  /** Once the CA-certificate step has succeeded, taking it again picks the
      same file, changes nothing and downloads nothing: the download happens
      at most once. */
  lemma CaCertPlanSettles(t: FileTree, directory: Path, appSupport: Path, x: Externals)
    requires CaCertPlan(t, directory, appSupport, x).result.Ok?
    ensures var s := CaCertPlan(t, directory, appSupport, x);
            CaCertPlan(s.tree, directory, appSupport, x) == Setup(s.result, s.tree, 0)
  {
    var s := CaCertPlan(t, directory, appSupport, x);
    var local := LocalCaCert(directory);
    var supportDir := SupportDirectory(appSupport);
    assert local != supportDir by {
      assert local[|local| - 1] == 'm';
      assert supportDir[|supportDir| - 1] == 'e';
    }
    if !IsFile(t, local) {
      assert IsDirectory(s.tree, supportDir);
      if IsFile(s.tree, local) {
        assert local == CachedCaCert(appSupport);
      }
    }
  }

  /** The CA-certificate part of `init(directory:)`, carried out on the disk. */
  method ResolveCaCert(disk: Disk, directory: Path, appSupport: Path, x: Externals)
    returns (r: Result<Path>, attempts: nat)
    modifies disk
    ensures var s := CaCertPlan(old(disk.nodes), directory, appSupport, x);
            r == s.result && disk.nodes == s.tree && attempts == s.attempts
  {
    attempts := 0;
    var caCert := LocalCaCert(directory);
    if !IsFile(disk.nodes, caCert) {
      var supportDir := SupportDirectory(appSupport);
      if !IsDirectory(disk.nodes, supportDir) {
        var created := disk.CreateDirectory(supportDir);
        if created.Fail? {
          return Err(created.error), 0;
        }
      }
      caCert := CachedCaCert(appSupport);
      assert caCert != supportDir by {
        assert |caCert| > |supportDir|;
      }
      if !IsFile(disk.nodes, caCert) {
        var downloaded;
        downloaded, attempts := DownloadCaCert(disk, caCert, x);
        if downloaded.Fail? {
          return Err(downloaded.error), attempts;
        }
      }
    }
    r := Ok(caCert);
  }

  /** `init(directory:password:)`: checks the home directory, then
      `cert.pem`, then `key.pem`, failing at the first that is missing with
      nothing changed; then takes the CA-certificate step, passing its failure
      through, and fixes the argument vector. */
  function InitPlan(t: FileTree, directory: Path, password: Option<string>, appSupport: Path, x: Externals)
    : (s: Setup<OpenSSLSigner>)
    ensures !IsDirectory(t, directory) ==> s == Setup(Err(NotADirectory(directory)), t, 0)
    ensures IsDirectory(t, directory) && !IsFile(t, CertFile(directory)) ==>
              s == Setup(Err(NotAFile(CertFile(directory))), t, 0)
    ensures IsDirectory(t, directory) && IsFile(t, CertFile(directory)) && !IsFile(t, KeyFile(directory)) ==>
              s == Setup(Err(NotAFile(KeyFile(directory))), t, 0)
    ensures HomeReady(t, directory) ==>
              && s.tree == CaCertPlan(t, directory, appSupport, x).tree
              && s.attempts == CaCertPlan(t, directory, appSupport, x).attempts
              && (s.result.Err? <==> CaCertPlan(t, directory, appSupport, x).result.Err?)
              && (s.result.Err? ==> s.result.error == CaCertPlan(t, directory, appSupport, x).result.error)
    ensures s.result.Ok? ==>
              && HomeReady(t, directory)
              && s.result.value.directory == directory
              && s.result.value.args == SigningArgs(CaCertChoice(t, directory, appSupport),
                                                    CertFile(directory), KeyFile(directory), password)
  {
    if !IsDirectory(t, directory) then Setup(Err(NotADirectory(directory)), t, 0)
    else if !IsFile(t, CertFile(directory)) then Setup(Err(NotAFile(CertFile(directory))), t, 0)
    else if !IsFile(t, KeyFile(directory)) then Setup(Err(NotAFile(KeyFile(directory))), t, 0)
    else
      var ca := CaCertPlan(t, directory, appSupport, x);
      match ca.result
      case Err(e) => Setup(Err(e), ca.tree, ca.attempts)
      case Ok(caCert) =>
        Setup(Ok(OpenSSLSigner(directory, SigningArgs(caCert, CertFile(directory), KeyFile(directory), password))),
              ca.tree, ca.attempts)
  }

  /** `init(directory:password:)` carried out on the disk. */
  method InitWithDirectory(disk: Disk, directory: Path, password: Option<string>, appSupport: Path, x: Externals)
    returns (r: Result<OpenSSLSigner>, attempts: nat)
    modifies disk
    ensures var s := InitPlan(old(disk.nodes), directory, password, appSupport, x);
            r == s.result && disk.nodes == s.tree && attempts == s.attempts
  {
    if !IsDirectory(disk.nodes, directory) {
      return Err(NotADirectory(directory)), 0;
    }
    var certFile := CertFile(directory);
    if !IsFile(disk.nodes, certFile) {
      return Err(NotAFile(certFile)), 0;
    }
    var keyFile := KeyFile(directory);
    if !IsFile(disk.nodes, keyFile) {
      return Err(NotAFile(keyFile)), 0;
    }
    var caCert;
    caCert, attempts := ResolveCaCert(disk, directory, appSupport, x);
    if caCert.Err? {
      return Err(caCert.error), attempts;
    }
    r := Ok(OpenSSLSigner(directory, SigningArgs(caCert.value, certFile, keyFile, password)));
  }

  /** `init()`: the signing home from the environment or the conventional
      locations, and the password from `PKPASSMAKE_PASSWORD` (blank means none);
      with a home found, the outcome is that of `init(directory:password:)`. */
  method Init(disk: Disk, env: map<string, string>, appSupport: Path, x: Externals)
    returns (r: Result<OpenSSLSigner>, attempts: nat)
    modifies disk
    ensures HomeDirectory(env, old(disk.nodes)).None? ==>
      r == Err(HomeNotFound) && attempts == 0 && disk.nodes == old(disk.nodes)
    ensures HomeDirectory(env, old(disk.nodes)).Some? ==>
      var s := InitPlan(old(disk.nodes), HomeDirectory(env, old(disk.nodes)).value,
                        EnvValue(env, PasswordVariable), appSupport, x);
      r == s.result && disk.nodes == s.tree && attempts == s.attempts
  {
    var password := EnvValue(env, PasswordVariable);
    var home := ResolveHome(env, disk.nodes);
    if home.None? {
      return Err(HomeNotFound), 0;
    }
    r, attempts := InitWithDirectory(disk, home.value, password, appSupport, x);
  }

  // ---------------------------------------------------------------------------
  // Signing (`sign(input:output:)`)

  /** What `sign` leaves in `output`, or why it fails: `openssl` runs with the
      stored arguments plus `-out output`, reading the input on stdin. */
  function Signature(s: OpenSSLSigner, input: Bytes, output: Path, x: Externals): Result<Bytes>
  {
    RunResult(x.run(s.args + ["-out", output], input))
  }

  method Sign(disk: Disk, s: OpenSSLSigner, input: Bytes, output: Path, x: Externals) returns (r: Outcome)
    modifies disk
    ensures r.Pass? <==> Signature(s, input, output, x).Ok?
    ensures r.Fail? ==> r.error == Signature(s, input, output, x).error
    ensures disk.nodes == if r.Pass? then old(disk.nodes)[output := Regular(Signature(s, input, output, x).value)]
                          else old(disk.nodes)
  {
    var result := RunResult(x.run(s.args + ["-out", output], input));
    if result.Err? {
      return Fail(result.error);
    }
    disk.Write(output, result.value);
    r := Pass;
  }
}

=== FILE: services.dfy ===
/** What the pipeline asks of the world outside the process: HTTP exchanges,
    runs of the `openssl` tool, the SHA-1 digest, the JSON rendering of the
    manifest, and the bytes of a ZIP archive. Each is a function the caller
    supplies; the model decides only what is asked and what is done with
    the answer. */
module Services {
  import opened Base
  import SHA1

  /** A parsed `URL`: its scheme (if any) and everything after the colon. */
  datatype Url = Url(scheme: Option<string>, rest: string)

  /** The parts of a `URLRequest` the pipeline sets. */
  datatype Request = Request(url: Url, httpMethod: string, body: Option<Bytes>, headers: map<string, string>)

  /** `URLRequest(url:)`: a GET with no body and no header fields. */
  function NewRequest(url: Url): Request
  {
    Request(url, "GET", None, map[])
  }

  /** The answer of `URLSession.shared.data(for:)`. */
  datatype HttpReply = Reply(status: int, body: Bytes) | Unreachable

  /** A finished run of `openssl`: how it ended and what it wrote to its
      `-out` file. */
  datatype ProcessOutcome = Terminated(status: TerminationStatus, written: Bytes) | NotLaunched

  datatype ArchiveEntry = FileEntry(path: Path, data: Bytes) | DirectoryEntry(path: Path)

  /** The manifest: relative path to lower-case hex SHA-1. */
  type Manifest = map<Path, string>

  datatype Externals = Externals(
    fetch: Request -> HttpReply,
    run: (seq<string>, Bytes) -> ProcessOutcome,
    hash: Bytes -> SHA1.Digest,
    encode: Manifest -> Bytes,
    zip: seq<ArchiveEntry> -> Bytes)

  /** The status guard shared by `HttpSigner.sign` and `downloadCaCert`: the
      body of a reply whose status is in [200, 300), an error otherwise. */
  function ReplyBody(reply: HttpReply): (r: Result<Bytes>)
    ensures r.Ok? <==> reply.Reply? && 200 <= reply.status < 300
    ensures r.Ok? ==> r.value == reply.body
    ensures reply.Reply? && r.Err? ==> r.error == UnexpectedStatus(reply.status)
    ensures reply.Unreachable? ==> r.error == TransportFailure
  {
    match reply
    case Unreachable => Err(TransportFailure)
    case Reply(status, body) =>
      if 200 <= status < 300 then Ok(body) else Err(UnexpectedStatus(status))
  }
}

=== FILE: sha1.dfy ===
/** `sha1(_:)`: the SHA-1 digest of a buffer as forty lower-case hex digits.
    The SHA-1 compression function itself is a parameter (`hash`); only the
    hex rendering `String(format: "%02x", byte)` joined in order is modelled. */
module SHA1 {
  import opened Base

  const DigestLength: nat := 20

  /** What `Insecure.SHA1.hash(data:)` returns: twenty bytes. */
  type Digest = d: Bytes | |d| == DigestLength witness seq(DigestLength, _ => 0)

  predicate IsLowerHex(c: char)
  {
    '0' <= c <= '9' || 'a' <= c <= 'f'
  }

  /** The lower-case hex digit for a nibble. */
  function HexDigit(v: nat): (c: char)
    requires v < 16
    ensures IsLowerHex(c)
  {
    if v < 10 then ('0' as int + v) as char else ('a' as int + v - 10) as char
  }

  /** `String(format: "%02x", b)`: two digits, high nibble first, zero padded. */
  function HexByte(b: byte): (s: string)
    ensures |s| == 2 && IsLowerHex(s[0]) && IsLowerHex(s[1])
  {
    [HexDigit(b / 16), HexDigit(b % 16)]
  }

  /** The bytes rendered with `HexByte` and joined without separators. */
  function Hex(bs: Bytes): (s: string)
    ensures |s| == 2 * |bs|
    ensures forall k :: 0 <= k < |s| ==> IsLowerHex(s[k])
  {
    if bs == [] then "" else HexByte(bs[0]) + Hex(bs[1..])
  }

  /** Byte `i` of the input is rendered at characters `2i` and `2i + 1`. */
  lemma {:induction false} HexAt(bs: Bytes, i: nat)
    requires i < |bs|
    ensures Hex(bs)[2 * i..2 * i + 2] == HexByte(bs[i])
  {
    if i > 0 {
      HexAt(bs[1..], i - 1);
      assert Hex(bs)[2 * i..2 * i + 2] == Hex(bs[1..])[2 * (i - 1)..2 * (i - 1) + 2];
    }
  }

  function DigitValue(c: char): (v: nat)
    requires IsLowerHex(c)
    ensures v < 16 && HexDigit(v) == c
  {
    if c <= '9' then c as nat - '0' as nat else c as nat - 'a' as nat + 10
  }

  /** Reads pairs of lower-case hex digits back into bytes; `None` for an odd
      length or a character outside `0-9a-f`. */
  function Unhex(s: string): (r: Option<Bytes>)
    decreases |s|
  {
    if s == [] then Some([])
    else if |s| < 2 || !IsLowerHex(s[0]) || !IsLowerHex(s[1]) then None
    else match Unhex(s[2..])
      case None => None
      case Some(rest) => Some([16 * DigitValue(s[0]) + DigitValue(s[1])] + rest)
  }

  lemma UnhexHexByte(b: byte)
    ensures 16 * DigitValue(HexByte(b)[0]) + DigitValue(HexByte(b)[1]) == b
  {
    assert DigitValue(HexDigit(b / 16)) == b / 16;
    assert DigitValue(HexDigit(b % 16)) == b % 16;
  }

  /** Decoding the rendering gives back the digest bytes. */
  lemma {:induction false} UnhexHex(bs: Bytes)
    ensures Unhex(Hex(bs)) == Some(bs)
  {
    if bs != [] {
      var s := Hex(bs);
      UnhexHex(bs[1..]);
      UnhexHexByte(bs[0]);
      assert s[2..] == Hex(bs[1..]);
      assert s[0] == HexByte(bs[0])[0] && s[1] == HexByte(bs[0])[1];
      assert Unhex(s) == Some([16 * DigitValue(s[0]) + DigitValue(s[1])] + bs[1..]);
      assert [bs[0]] + bs[1..] == bs;
    }
  }

  /** Different byte strings never render to the same text. */
  lemma HexInjective(a: Bytes, b: Bytes)
    requires Hex(a) == Hex(b)
    ensures a == b
  {
    UnhexHex(a);
    UnhexHex(b);
  }

  /** `sha1(data)` given the digest function `hash`. */
  function Sha1(hash: Bytes -> Digest, data: Bytes): (s: string)
    ensures |s| == 2 * DigestLength
    ensures forall k :: 0 <= k < |s| ==> IsLowerHex(s[k])
    ensures Unhex(s) == Some(hash(data))
  {
    UnhexHex(hash(data));
    Hex(hash(data))
  }
}

=== FILE: sign_and_compress.dfy ===
/** `signAndCompress(_:using:to:)`: hashes every regular file under a pass
    directory into `manifest.json`, has the signer sign the manifest into
    `signature`, and packs the listed files, the manifest and the signature
    into a ZIP archive. */
module SignAndCompress {
  import opened Base
  import opened Files
  import opened Extensions
  import opened Storage
  import opened SHA1
  import opened Services
  import opened Signing

  const ManifestName: string := "manifest.json"
  const SignatureName: string := "signature"

  /** The two relative paths the manifest never lists. */
  predicate Reserved(rel: string)
  {
    rel == ManifestName || rel == SignatureName
  }

  function ManifestPath(source: Path): Path { Join(source, ManifestName) }
  function SignaturePath(source: Path): Path { Join(source, SignatureName) }

  /** `destinationURL ?? sourceURL.appendingPathExtension("pkpass")`. */
  function Destination(source: Path, destination: Option<Path>): (dest: Path)
    ensures destination.Some? ==> dest == destination.value
    ensures destination.None? ==> dest == source + ".pkpass"
  {
    if destination.Some? then destination.value else source + ".pkpass"
  }

  // ---------------------------------------------------------------------
  // Relative paths
  // ---------------------------------------------------------------------

  /** `pattern` occurs in `s` starting at index `k`. */
  predicate OccursAt(s: string, pattern: string, k: int)
  {
    0 <= k && k + |pattern| <= |s| && s[k..k + |pattern|] == pattern
  }

  /** `replacingOccurrences(of: pattern, with: "")`: every non-overlapping
      occurrence, scanning left to right, is deleted. */
  function RemoveAll(s: string, pattern: string): string
    requires pattern != []
    decreases |s|
  {
    if s == [] then []
    else if pattern <= s then RemoveAll(s[|pattern|..], pattern)
    else [s[0]] + RemoveAll(s[1..], pattern)
  }

  /** The relative path as the loop computes it: every occurrence of the
      source path followed by a slash is deleted from the file path. */
  function RelativePathAsWritten(source: Path, file: Path): string
  {
    RemoveAll(file, source + "/")
  }

  /** The relative path the manifest is meant to hold: the file path with the
      leading source directory removed. This is the one the model uses. */
  function RelativePath(source: Path, file: Path): (rel: string)
    ensures source + "/" <= file ==> file == Join(source, rel)
    ensures !(source + "/" <= file) ==> rel == file
  {
    if source + "/" <= file then file[|source| + 1..] else file
  }

  /** A string in which the pattern never occurs is left alone. */
  lemma {:induction false} RemoveAllAbsent(s: string, pattern: string)
    requires pattern != []
    requires forall k :: !OccursAt(s, pattern, k)
    ensures RemoveAll(s, pattern) == s
  {
    if s != [] {
      assert !OccursAt(s, pattern, 0);
      assert !(pattern <= s);
      forall k
        ensures !OccursAt(s[1..], pattern, k)
      {
        if 0 <= k && k + |pattern| <= |s[1..]| {
          assert s[1..][k..k + |pattern|] == s[k + 1..k + 1 + |pattern|];
          assert !OccursAt(s, pattern, k + 1);
        }
      }
      RemoveAllAbsent(s[1..], pattern);
      assert [s[0]] + s[1..] == s;
    }
  }

  /** When the source path with its slash occurs in the file path only at the
      start (or nowhere), the computation as written agrees with the intended
      relative path. */
  lemma AsWrittenAgrees(source: Path, file: Path)
    requires forall k :: 0 < k ==> !OccursAt(file, source + "/", k)
    ensures RelativePathAsWritten(source, file) == RelativePath(source, file)
  {
    var pattern := source + "/";
    if pattern <= file {
      var rest := file[|pattern|..];
      forall k
        ensures !OccursAt(rest, pattern, k)
      {
        if 0 <= k && k + |pattern| <= |rest| {
          assert rest[k..k + |pattern|] == file[k + |pattern|..k + |pattern| + |pattern|];
          assert !OccursAt(file, pattern, k + |pattern|);
        }
      }
      RemoveAllAbsent(rest, pattern);
    } else {
      assert !OccursAt(file, pattern, 0);
      RemoveAllAbsent(file, pattern);
    }
  }

  /** A file whose path repeats the source path further down gets a mangled
      manifest key: `/p/q/p/x` under `/p` becomes `qx`, not `q/p/x`. */
  lemma AsWrittenMangledRepeat()
    ensures RelativePathAsWritten("/p", "/p/q/p/x") == "qx"
    ensures RelativePath("/p", "/p/q/p/x") == "q/p/x"
  {
    var pattern := "/p/";
    assert pattern <= "/p/q/p/x";
    assert "/p/q/p/x"[3..] == "q/p/x";
    assert "q/p/x"[0] != pattern[0];
    assert "q/p/x"[1..] == "/p/x";
    assert pattern <= "/p/x";
    assert "/p/x"[3..] == "x";
    assert "x"[0] != pattern[0];
    assert "x"[1..] == [];
    calc {
      RemoveAll("/p/q/p/x", pattern);
      RemoveAll("q/p/x", pattern);
      "q" + RemoveAll("/p/x", pattern);
      "q" + RemoveAll("x", pattern);
      "q" + ("x" + RemoveAll([], pattern));
    }
  }

  // ---------------------------------------------------------------------
  // The manifest
  // ---------------------------------------------------------------------

  /** A listed item the manifest takes: it still exists, it is a regular
      file, and its relative path is not one of the two reserved names. */
  predicate Included(t: FileTree, source: Path, file: Path)
  {
    file in t && t[file].Regular? && !Reserved(RelativePath(source, file))
  }

  /** Every listed item still exists (its resource values can be read). */
  predicate Readable(t: FileTree, listing: seq<Path>)
  {
    forall i :: 0 <= i < |listing| ==> listing[i] in t
  }

  /** Every listed item lies below the source directory, as the directory
      enumerator promises. */
  predicate ListingUnder(source: Path, listing: seq<Path>)
  {
    forall i :: 0 <= i < |listing| ==> source + "/" <= listing[i]
  }

  /** The manifest built from the first `|listing|` enumerated items: each
      included file sets its key to its digest, a later one overwriting an
      earlier one with the same key. */
  function ManifestOf(t: FileTree, source: Path, listing: seq<Path>, hash: Bytes -> Digest): (m: Manifest)
    ensures forall k :: k in m ==> !Reserved(k)
    ensures forall k :: k in m ==> |m[k]| == 2 * DigestLength && Unhex(m[k]).Some?
    decreases |listing|
  {
    if listing == [] then map[]
    else
      var m := ManifestOf(t, source, listing[..|listing| - 1], hash);
      var file := listing[|listing| - 1];
      if Included(t, source, file) then m[RelativePath(source, file) := Sha1(hash, t[file].data)] else m
  }

  /** The manifest as the loop computes it, with keys from
      `RelativePathAsWritten` both for the reserved-name check and for the
      entry. */
  function ManifestAsWritten(t: FileTree, source: Path, listing: seq<Path>, hash: Bytes -> Digest): Manifest
    decreases |listing|
  {
    if listing == [] then map[]
    else
      var m := ManifestAsWritten(t, source, listing[..|listing| - 1], hash);
      var file := listing[|listing| - 1];
      var rel := RelativePathAsWritten(source, file);
      if file in t && t[file].Regular? && !Reserved(rel) then m[rel := Sha1(hash, t[file].data)] else m
  }

  /** The source path with its slash occurs in `file` at most at the start. */
  predicate SourceNotRepeated(source: Path, file: Path)
  {
    forall k :: 0 < k < |file| ==> !OccursAt(file, source + "/", k)
  }

  /** When no listed path repeats the source path, the manifest as written is
      the intended one. */
  lemma {:induction false} ManifestAsWrittenAgrees(t: FileTree, source: Path, listing: seq<Path>, hash: Bytes -> Digest)
    requires forall i :: 0 <= i < |listing| ==> SourceNotRepeated(source, listing[i])
    ensures ManifestAsWritten(t, source, listing, hash) == ManifestOf(t, source, listing, hash)
    decreases |listing|
  {
    if listing != [] {
      var n := |listing| - 1;
      ManifestAsWrittenAgrees(t, source, listing[..n], hash);
      AsWrittenAgrees(source, listing[n]);
    }
  }

  /** A pass directory `/p` holding `/p/q/p/x`: the manifest as written lists
      the key `qx`, which names no file under `/p`, so the archive step's
      `addEntry(with: "qx", relativeTo: /p)` cannot find it; the intended
      manifest lists `q/p/x`, which names the file. */
  lemma ManifestAsWrittenMangles(hash: Bytes -> Digest)
    ensures var t := map["/p" := Directory, "/p/q/p/x" := Regular([])];
            && "qx" in ManifestAsWritten(t, "/p", ["/p/q/p/x"], hash)
            && Join("/p", "qx") !in t
            && ManifestOf(t, "/p", ["/p/q/p/x"], hash).Keys == {"q/p/x"}
            && Join("/p", "q/p/x") in t
  {
    var t := map["/p" := Directory, "/p/q/p/x" := Regular([])];
    AsWrittenMangledRepeat();
    var listing := ["/p/q/p/x"];
    assert listing[..0] == [];
    assert Join("/p", "qx") == "/p/qx";
    assert "/p/qx" != "/p/q/p/x" by {
      assert |"/p/qx"| != |"/p/q/p/x"|;
    }
    assert Join("/p", "q/p/x") == "/p/q/p/x";
  }

  /** Entry `i` of the listing contributes key `k`. */
  predicate Provides(t: FileTree, source: Path, listing: seq<Path>, i: int, k: string)
  {
    0 <= i < |listing| && Included(t, source, listing[i]) && RelativePath(source, listing[i]) == k
  }

  /** Entry `i` is the last one contributing key `k`. */
  predicate LastProvider(t: FileTree, source: Path, listing: seq<Path>, i: int, k: string)
  {
    Provides(t, source, listing, i, k) && forall j :: i < j < |listing| ==> !Provides(t, source, listing, j, k)
  }

  /** What the last enumerated item does to key `k`. */
  lemma ManifestLastItem(t: FileTree, source: Path, listing: seq<Path>, hash: Bytes -> Digest, k: string)
    requires listing != []
    ensures var n := |listing| - 1;
            var before := ManifestOf(t, source, listing[..n], hash);
            var after := ManifestOf(t, source, listing, hash);
            && (k in after <==> Provides(t, source, listing, n, k) || k in before)
            && (Provides(t, source, listing, n, k) ==> after[k] == Sha1(hash, t[listing[n]].data))
            && (!Provides(t, source, listing, n, k) && k in before ==> after[k] == before[k])
  {
  }

  /** The items before the last provide a key in the shorter listing iff they
      do in the whole one. */
  lemma ProvidesInFront(t: FileTree, source: Path, listing: seq<Path>, k: string)
    requires listing != []
    ensures forall i :: 0 <= i < |listing| - 1 ==>
              (Provides(t, source, listing[..|listing| - 1], i, k) <==> Provides(t, source, listing, i, k))
  {
  }

  /** The manifest has a key exactly for each included file, and its value is
      the digest of the last included file with that key. */
  lemma {:induction false} ManifestEntries(t: FileTree, source: Path, listing: seq<Path>, hash: Bytes -> Digest, k: string)
    ensures k in ManifestOf(t, source, listing, hash) <==> exists i :: Provides(t, source, listing, i, k)
    ensures k in ManifestOf(t, source, listing, hash) ==>
              exists i :: LastProvider(t, source, listing, i, k)
                       && ManifestOf(t, source, listing, hash)[k] == Sha1(hash, t[listing[i]].data)
    decreases |listing|
  {
    if listing != [] {
      var n := |listing| - 1;
      var front := listing[..n];
      ManifestEntries(t, source, front, hash, k);
      ManifestLastItem(t, source, listing, hash, k);
      ProvidesInFront(t, source, listing, k);
      if Provides(t, source, listing, n, k) {
        assert LastProvider(t, source, listing, n, k);
      } else {
        if k in ManifestOf(t, source, front, hash) {
          var i :| LastProvider(t, source, front, i, k)
                && ManifestOf(t, source, front, hash)[k] == Sha1(hash, t[front[i]].data);
          assert LastProvider(t, source, listing, i, k);
        } else {
          assert forall i :: !Provides(t, source, listing, i, k) by {
            forall i | 0 <= i < n ensures !Provides(t, source, listing, i, k) {
              assert !Provides(t, source, front, i, k);
            }
          }
        }
      }
    }
  }

  /** For a listing below the source, each key names a regular file under the
      source whose digest is the key's value: a pass consumer that recomputes
      the digests of the archived files finds the manifest's. */
  lemma {:induction false} ManifestMatchesFiles(t: FileTree, source: Path, listing: seq<Path>, hash: Bytes -> Digest, k: string)
    requires ListingUnder(source, listing)
    requires k in ManifestOf(t, source, listing, hash)
    ensures !Reserved(k)
    ensures Join(source, k) in t && t[Join(source, k)].Regular?
    ensures ManifestOf(t, source, listing, hash)[k] == Sha1(hash, t[Join(source, k)].data)
  {
    ManifestEntries(t, source, listing, hash, k);
    var i :| LastProvider(t, source, listing, i, k)
          && ManifestOf(t, source, listing, hash)[k] == Sha1(hash, t[listing[i]].data);
    assert source + "/" <= listing[i];
    assert listing[i] == Join(source, k);
  }

  /** Entry `i` is the first listed item that no longer exists. */
  predicate FirstMissing(t: FileTree, listing: seq<Path>, i: int)
  {
    0 <= i < |listing| && listing[i] !in t && Readable(t, listing[..i])
  }

  lemma ReadableStep(t: FileTree, listing: seq<Path>, i: nat)
    requires i < |listing| && Readable(t, listing[..i]) && listing[i] in t
    ensures Readable(t, listing[..i + 1])
  {
    forall j | 0 <= j < i ensures listing[j] in t {
      assert listing[..i][j] == listing[j];
    }
  }

  /** Taking one more enumerated item into the manifest. */
  lemma ManifestStep(t: FileTree, source: Path, listing: seq<Path>, i: nat, hash: Bytes -> Digest)
    requires i < |listing|
    ensures ManifestOf(t, source, listing[..i + 1], hash) ==
              if Included(t, source, listing[i])
              then ManifestOf(t, source, listing[..i], hash)[RelativePath(source, listing[i]) := Sha1(hash, t[listing[i]].data)]
              else ManifestOf(t, source, listing[..i], hash)
  {
    assert listing[..i + 1][..i] == listing[..i];
  }

  /** The enumeration loop: each listed item in turn is skipped unless it is
      a regular file whose relative path is not reserved, and otherwise
      records its digest under its relative path. Reading the resource values
      of an item that has gone fails, and the whole call fails with it. */
  method BuildManifest(t: FileTree, source: Path, listing: seq<Path>, hash: Bytes -> Digest) returns (r: Result<Manifest>)
    ensures r.Ok? <==> Readable(t, listing)
    ensures r.Ok? ==> r.value == ManifestOf(t, source, listing, hash)
    ensures r.Err? ==> exists i :: FirstMissing(t, listing, i) && r.error == CannotRead(listing[i])
  {
    var manifest: Manifest := map[];
    var i := 0;
    while i < |listing|
      invariant 0 <= i <= |listing|
      invariant Readable(t, listing[..i])
      invariant manifest == ManifestOf(t, source, listing[..i], hash)
    {
      var file := listing[i];
      if file !in t {
        assert FirstMissing(t, listing, i);
        assert !Readable(t, listing) by {
          assert listing[i] !in t;
        }
        return Err(CannotRead(file));
      }
      ReadableStep(t, listing, i);
      ManifestStep(t, source, listing, i, hash);
      if t[file].Regular? {
        var rel := RelativePath(source, file);
        if !Reserved(rel) {
          manifest := manifest[rel := Sha1(hash, t[file].data)];
        }
      }
      i := i + 1;
    }
    assert listing[..i] == listing;
    r := Ok(manifest);
  }

  /** `Array(manifest.keys)`: every key exactly once, in the order the
      dictionary happens to produce. */
  method KeyOrder(m: Manifest) returns (keys: seq<string>)
    ensures |keys| == |m|
    ensures forall k :: k in m <==> k in keys
    ensures forall i, j :: 0 <= i < j < |keys| ==> keys[i] != keys[j]
  {
    keys := [];
    var rest := m.Keys;
    while rest != {}
      invariant forall k :: k in m <==> k in keys || k in rest
      invariant forall k :: k in keys ==> k !in rest
      invariant forall i, j :: 0 <= i < j < |keys| ==> keys[i] != keys[j]
      invariant |keys| + |rest| == |m|
      decreases |rest|
    {
      var k :| k in rest;
      keys := keys + [k];
      rest := rest - {k};
    }
  }

  // ---------------------------------------------------------------------
  // The archive
  // ---------------------------------------------------------------------

  /** `archive.addEntry(with: name, relativeTo: source)`: a regular file at
      `source/name` becomes a file entry holding its bytes, a directory a
      directory entry; a missing or special item cannot be added. */
  function EntryAt(t: FileTree, source: Path, name: Path): (r: Result<ArchiveEntry>)
    ensures r.Ok? <==> Join(source, name) in t && !t[Join(source, name)].Special?
    ensures r.Ok? ==> r.value.path == name
    ensures r.Ok? ==> (r.value.FileEntry? <==> t[Join(source, name)].Regular?)
    ensures r.Ok? && r.value.FileEntry? ==> r.value.data == t[Join(source, name)].data
    ensures r.Err? ==> r.error == CannotRead(Join(source, name))
  {
    var p := Join(source, name);
    if p !in t then Err(CannotRead(p))
    else match t[p]
      case Regular(data) => Ok(FileEntry(name, data))
      case Directory => Ok(DirectoryEntry(name))
      case Special => Err(CannotRead(p))
  }

  /** The tree while the archive file at `dest` holds `entries`. */
  function WithArchive(t: FileTree, dest: Path, x: Externals, entries: seq<ArchiveEntry>): FileTree
  {
    t[dest := Regular(x.zip(entries))]
  }

  /** Each entry was read, in order, from the tree holding the archive built
      so far. */
  predicate ReadInOrder(t: FileTree, source: Path, dest: Path, x: Externals, names: seq<Path>, entries: seq<ArchiveEntry>)
  {
    && |entries| <= |names|
    && forall i :: 0 <= i < |entries| ==>
         EntryAt(WithArchive(t, dest, x, entries[..i]), source, names[i]) == Ok(entries[i])
  }

  /** `Archive(url: dest, accessMode: .create)` followed by one `addEntry`
      per name: the archive file is rewritten after every entry, each entry
      is read from the tree as it stands at that moment, and the first name
      that cannot be read ends the loop with an error. */
  method ArchiveFiles(disk: Disk, source: Path, dest: Path, names: seq<Path>, x: Externals)
    returns (r: Outcome, entries: seq<ArchiveEntry>)
    modifies disk
    ensures disk.nodes == WithArchive(old(disk.nodes), dest, x, entries)
    ensures ReadInOrder(old(disk.nodes), source, dest, x, names, entries)
    ensures r.Pass? <==> |entries| == |names|
    ensures r.Fail? ==> EntryAt(WithArchive(old(disk.nodes), dest, x, entries), source, names[|entries|]) == Err(r.error)
  {
    disk.Write(dest, x.zip([]));
    entries := [];
    for i := 0 to |names|
      invariant |entries| == i
      invariant disk.nodes == WithArchive(old(disk.nodes), dest, x, entries)
      invariant forall j :: 0 <= j < i ==>
                  EntryAt(WithArchive(old(disk.nodes), dest, x, entries[..j]), source, names[j]) == Ok(entries[j])
    {
      var entry := EntryAt(disk.nodes, source, names[i]);
      if entry.Err? {
        return Fail(entry.error), entries;
      }
      assert forall j :: 0 <= j <= i ==> (entries + [entry.value])[..j] == entries[..j];
      entries := entries + [entry.value];
      disk.Write(dest, x.zip(entries));
    }
    r := Pass;
  }

  // ---------------------------------------------------------------------
  // The pipeline
  // ---------------------------------------------------------------------

  /** The tree once `manifest.json` and `signature` are written. */
  function SignedTree(t: FileTree, source: Path, manifestData: Bytes, signature: Bytes): FileTree
  {
    t[ManifestPath(source) := Regular(manifestData)][SignaturePath(source) := Regular(signature)]
  }

  /** The signature size logged after signing is the length of the signature. */
  lemma LoggedSignatureSize(t: FileTree, source: Path, manifestData: Bytes, signature: Bytes)
    ensures FileSize(SignedTree(t, source, manifestData, signature), SignaturePath(source)) == Some(|signature|)
  {
    FileSizeAfterWrite(t[ManifestPath(source) := Regular(manifestData)], SignaturePath(source), signature, SignaturePath(source));
  }

  /** `if fileExists(dest) { removeItem(dest) }`. */
  function Cleared(t: FileTree, dest: Path): FileTree
  {
    if dest in t then RemoveTree(t, dest) else t
  }

  /** Neither path is the other or lies below it. */
  predicate Apart(source: Path, dest: Path)
  {
    dest != source && !(dest + "/" <= source) && !(source + "/" <= dest)
  }

  /** Removing a destination apart from the source keeps every item below
      the source. */
  lemma ApartKeepsItems(source: Path, dest: Path, name: string)
    requires Apart(source, dest)
    ensures !Removed(dest, Join(source, name))
  {
    var p := Join(source, name);
    assert source + "/" <= p;
    if |dest| < |source| {
      assert p[..|dest| + 1] == source[..|dest| + 1];
    } else if |dest| == |source| {
      assert p[..|dest|] == source;
    } else {
      assert p[..|source| + 1] == source + "/";
      assert (dest + "/")[..|source| + 1] == dest[..|source| + 1];
    }
  }

  /** The paths of an archive whose manifest is `m`: the keys in some order,
      then `manifest.json`, then `signature`, each exactly once. */
  predicate ArchiveLayout(entries: seq<ArchiveEntry>, m: Manifest)
  {
    && |entries| == |m| + 2
    && (forall i :: 0 <= i < |m| ==> entries[i].path in m)
    && entries[|m|].path == ManifestName
    && entries[|m| + 1].path == SignatureName
    && (forall i, j :: 0 <= i < j < |entries| ==> entries[i].path != entries[j].path)
  }

  /** What a pass consumer checks: each listed file's digest matches the
      manifest, and the manifest and signature entries hold what was signed. */
  predicate ArchiveVerifies(entries: seq<ArchiveEntry>, m: Manifest, hash: Bytes -> Digest, manifestData: Bytes, signature: Bytes)
  {
    && ArchiveLayout(entries, m)
    && (forall i :: 0 <= i < |m| ==> entries[i].FileEntry? && Sha1(hash, entries[i].data) == m[entries[i].path])
    && entries[|m|] == FileEntry(ManifestName, manifestData)
    && entries[|m| + 1] == FileEntry(SignatureName, signature)
  }

  /** Each file entry of the archive holds the bytes of the source file it
      is named after, as that file stood before signing. */
  predicate ArchiveHoldsFiles(entries: seq<ArchiveEntry>, m: Manifest, t: FileTree, source: Path)
  {
    forall i :: 0 <= i < |m| && i < |entries| ==>
      && Join(source, entries[i].path) in t && t[Join(source, entries[i].path)].Regular?
      && entries[i] == FileEntry(entries[i].path, t[Join(source, entries[i].path)].data)
  }

  /** With the destination apart from the source, the archive loop reads
      items below the source exactly as the signer left them. */
  lemma ThroughArchive(signed: FileTree, source: Path, dest: Path, x: Externals, es: seq<ArchiveEntry>, name: string)
    requires Apart(source, dest)
    ensures EntryAt(WithArchive(Cleared(signed, dest), dest, x, es), source, name) == EntryAt(signed, source, name)
  {
    var p := Join(source, name);
    ApartKeepsItems(source, dest, name);
    assert p != dest;
    var cleared := Cleared(signed, dest);
    assert p in cleared <==> p in signed;
    assert p in cleared ==> cleared[p] == signed[p];
  }

  /** After the manifest and the signature are written, the two reserved
      names read back as those, and every other name as before. */
  lemma SignedReads(t: FileTree, source: Path, manifestData: Bytes, signature: Bytes, name: string)
    ensures name == ManifestName ==>
              EntryAt(SignedTree(t, source, manifestData, signature), source, name) == Ok(FileEntry(name, manifestData))
    ensures name == SignatureName ==>
              EntryAt(SignedTree(t, source, manifestData, signature), source, name) == Ok(FileEntry(name, signature))
    ensures !Reserved(name) ==>
              EntryAt(SignedTree(t, source, manifestData, signature), source, name) == EntryAt(t, source, name)
  {
    JoinInjective(source, name, SignatureName);
    JoinInjective(source, name, ManifestName);
  }

  /** Reading a manifest key or a reserved name back from the tree the
      archive loop sees yields the hashed file, the manifest or the signature. */
  lemma ArchiveReads(t: FileTree, source: Path, listing: seq<Path>, x: Externals, signature: Bytes,
                     dest: Path, es: seq<ArchiveEntry>, name: string)
    requires ListingUnder(source, listing) && Apart(source, dest)
    requires name in ManifestOf(t, source, listing, x.hash) || Reserved(name)
    ensures var m := ManifestOf(t, source, listing, x.hash);
            var e := EntryAt(WithArchive(Cleared(SignedTree(t, source, x.encode(m), signature), dest), dest, x, es), source, name);
            && e.Ok? && e.value.FileEntry? && e.value.path == name
            && (name == ManifestName ==> e.value.data == x.encode(m))
            && (name == SignatureName ==> e.value.data == signature)
            && (name in m ==> Sha1(x.hash, e.value.data) == m[name])
            && (name in m ==> Join(source, name) in t && t[Join(source, name)].Regular? &&
                              e.value.data == t[Join(source, name)].data)
  {
    var m := ManifestOf(t, source, listing, x.hash);
    var signed := SignedTree(t, source, x.encode(m), signature);
    ThroughArchive(signed, source, dest, x, es, name);
    SignedReads(t, source, x.encode(m), signature, name);
    if name in m {
      ManifestMatchesFiles(t, source, listing, x.hash, name);
    }
  }

  /** An archive whose entries were read name by name from the keys and the
      two reserved names has the layout the pass format expects. */
  lemma {:induction false} LayoutFromNames(m: Manifest, keys: seq<string>, entries: seq<ArchiveEntry>)
    requires |keys| == |m| && (forall k :: k in m <==> k in keys)
    requires forall i, j :: 0 <= i < j < |keys| ==> keys[i] != keys[j]
    requires forall k :: k in m ==> !Reserved(k)
    requires |entries| == |keys| + 2
    requires forall i :: 0 <= i < |entries| ==> entries[i].path == (keys + [ManifestName, SignatureName])[i]
    ensures ArchiveLayout(entries, m)
  {
    var names := keys + [ManifestName, SignatureName];
    forall i | 0 <= i < |m|
      ensures entries[i].path in m
    {
      assert names[i] == keys[i];
    }
    forall i, j | 0 <= i < j < |entries|
      ensures entries[i].path != entries[j].path
    {
      if j < |m| {
        assert names[i] == keys[i] && names[j] == keys[j];
      } else if i < |m| {
        assert names[i] == keys[i];
      }
    }
  }

  /** A complete archive read in order from the signed tree has the pass
      layout, and with the destination apart from a source whose listing lies
      below it, every entry verifies against the manifest. */
  lemma ArchiveComplete(t: FileTree, source: Path, listing: seq<Path>, x: Externals, signature: Bytes,
                        dest: Path, keys: seq<string>, entries: seq<ArchiveEntry>)
    requires var m := ManifestOf(t, source, listing, x.hash);
             && |keys| == |m| && (forall k :: k in m <==> k in keys)
             && (forall i, j :: 0 <= i < j < |keys| ==> keys[i] != keys[j])
             && |entries| == |keys| + 2
             && ReadInOrder(Cleared(SignedTree(t, source, x.encode(m), signature), dest), source, dest, x,
                            keys + [ManifestName, SignatureName], entries)
    ensures ArchiveLayout(entries, ManifestOf(t, source, listing, x.hash))
    ensures ListingUnder(source, listing) && Apart(source, dest) ==>
              var m := ManifestOf(t, source, listing, x.hash);
              ArchiveVerifies(entries, m, x.hash, x.encode(m), signature)
    ensures ListingUnder(source, listing) && Apart(source, dest) ==>
              ArchiveHoldsFiles(entries, ManifestOf(t, source, listing, x.hash), t, source)
  {
    var m := ManifestOf(t, source, listing, x.hash);
    var names := keys + [ManifestName, SignatureName];
    var base := Cleared(SignedTree(t, source, x.encode(m), signature), dest);
    forall i | 0 <= i < |entries|
      ensures entries[i].path == names[i]
    {
      assert EntryAt(WithArchive(base, dest, x, entries[..i]), source, names[i]) == Ok(entries[i]);
    }
    LayoutFromNames(m, keys, entries);
    if ListingUnder(source, listing) && Apart(source, dest) {
      forall i | 0 <= i < |entries|
        ensures entries[i].FileEntry?
        ensures i < |m| ==> Sha1(x.hash, entries[i].data) == m[entries[i].path]
        ensures i < |m| ==> Join(source, entries[i].path) in t && t[Join(source, entries[i].path)].Regular? &&
                            entries[i] == FileEntry(entries[i].path, t[Join(source, entries[i].path)].data)
        ensures i == |m| ==> entries[i].data == x.encode(m)
        ensures i == |m| + 1 ==> entries[i].data == signature
      {
        assert i < |m| ==> names[i] in m;
        ArchiveReads(t, source, listing, x, signature, dest, entries[..i], names[i]);
      }
    }
  }

  /** The archive half of the pipeline, once the manifest and the signature
      are written: an existing destination is removed, then the keys,
      `manifest.json` and `signature` are added in that order. `t` is the
      tree before signing. */
  method Compress(disk: Disk, ghost t: FileTree, source: Path, listing: seq<Path>, dest: Path,
                  manifest: Manifest, ghost signature: Bytes, x: Externals)
    returns (r: Result<Path>, ghost entries: seq<ArchiveEntry>)
    requires manifest == ManifestOf(t, source, listing, x.hash)
    requires disk.nodes == SignedTree(t, source, x.encode(manifest), signature)
    modifies disk
    ensures disk.nodes == WithArchive(Cleared(old(disk.nodes), dest), dest, x, entries)
    ensures r.Ok? ==> r.value == dest && ArchiveLayout(entries, manifest)
    ensures r.Err? ==> r.error.CannotRead?
    ensures ListingUnder(source, listing) && Apart(source, dest) ==>
              && r.Ok? && ArchiveVerifies(entries, manifest, x.hash, x.encode(manifest), signature)
              && ArchiveHoldsFiles(entries, manifest, t, source)
  {
    if dest in disk.nodes {
      disk.Remove(dest);
    }
    var keys := KeyOrder(manifest);
    var names := keys + [ManifestName, SignatureName];
    var archived, archivedEntries := ArchiveFiles(disk, source, dest, names, x);
    entries := archivedEntries;
    if archived.Fail? {
      if ListingUnder(source, listing) && Apart(source, dest) {
        ArchiveReads(t, source, listing, x, signature, dest, entries, names[|entries|]);
        assert false;
      }
      return Err(archived.error), entries;
    }

    ArchiveComplete(t, source, listing, x, signature, dest, keys, entries);
    r := Ok(dest);
  }

  /** `signAndCompress(_:using:to:)`. The directory enumerator's output is
      the parameter `listing` (hidden items already skipped), in its order. */
  method SignAndCompress(disk: Disk, source: Path, signer: Signer, destination: Option<Path>,
                         listing: seq<Path>, x: Externals)
    returns (r: Result<Path>, ghost entries: seq<ArchiveEntry>)
    modifies disk
    ensures !IsDirectory(old(disk.nodes), source) ==>
              r == Err(SourceNotADirectory(source)) && disk.nodes == old(disk.nodes)
    ensures IsDirectory(old(disk.nodes), source) && !Readable(old(disk.nodes), listing) ==>
              && (exists i :: FirstMissing(old(disk.nodes), listing, i) && r == Err(CannotRead(listing[i])))
              && disk.nodes == old(disk.nodes)
    ensures IsDirectory(old(disk.nodes), source) && Readable(old(disk.nodes), listing) ==>
              var m := ManifestOf(old(disk.nodes), source, listing, x.hash);
              var signature := Signature(signer, x.encode(m), SignaturePath(source), x);
              var dest := Destination(source, destination);
              && (signature.Err? ==>
                    r == Err(signature.error) && disk.nodes == old(disk.nodes)[ManifestPath(source) := Regular(x.encode(m))])
              && (signature.Ok? ==>
                    && disk.nodes == WithArchive(Cleared(SignedTree(old(disk.nodes), source, x.encode(m), signature.value), dest), dest, x, entries)
                    && (r.Ok? ==> r.value == dest && ArchiveLayout(entries, m))
                    && (r.Err? ==> r.error.CannotRead?)
                    && (ListingUnder(source, listing) && Apart(source, dest) ==>
                          && r.Ok? && ArchiveVerifies(entries, m, x.hash, x.encode(m), signature.value)
                          && ArchiveHoldsFiles(entries, m, old(disk.nodes), source)))
  {
    entries := [];
    ghost var original := disk.nodes;
    if !IsDirectory(disk.nodes, source) {
      return Err(SourceNotADirectory(source)), entries;
    }
    var manifestPath := ManifestPath(source);
    var signaturePath := SignaturePath(source);
    var dest := Destination(source, destination);

    var built := BuildManifest(disk.nodes, source, listing, x.hash);
    if built.Err? {
      return Err(built.error), entries;
    }
    var manifest := built.value;
    var manifestData := x.encode(manifest);
    disk.Write(manifestPath, manifestData);
    var signed := Sign(disk, signer, manifestData, signaturePath, x);
    if signed.Fail? {
      return Err(signed.error), entries;
    }
    ghost var signature := Signature(signer, manifestData, signaturePath, x).value;
    assert disk.nodes == SignedTree(original, source, manifestData, signature);
    r, entries := Compress(disk, original, source, listing, dest, manifest, signature, x);
  }
}

=== FILE: signer.dfy ===
/** The `Signer` protocol: one operation, `sign(input:output:)`, with the
    two implementations the pipeline can be given. */
module Signing {
  import opened Base
  import opened Files
  import opened Storage
  import opened Services
  import HttpSigning
  import OpenSSLSigning

  datatype Signer =
    | Local(openssl: OpenSSLSigning.OpenSSLSigner)
    | Remote(http: HttpSigning.HttpSigner)

  /** The bytes a signer leaves in `output` for `input`, or why it fails. */
  function Signature(signer: Signer, input: Bytes, output: Path, x: Externals): Result<Bytes>
  {
    match signer
    case Local(s) => OpenSSLSigning.Signature(s, input, output, x)
    case Remote(s) => HttpSigning.Signature(s, input, x)
  }

  /** `signer.sign(input:output:)`: on success `output` holds the signature
      and nothing else changed; on failure nothing changed. */
  method Sign(disk: Disk, signer: Signer, input: Bytes, output: Path, x: Externals) returns (r: Outcome)
    modifies disk
    ensures r.Pass? <==> Signature(signer, input, output, x).Ok?
    ensures r.Fail? ==> r.error == Signature(signer, input, output, x).error
    ensures disk.nodes == if r.Pass? then old(disk.nodes)[output := Regular(Signature(signer, input, output, x).value)]
                          else old(disk.nodes)
  {
    match signer
    case Local(s) => r := OpenSSLSigning.Sign(disk, s, input, output, x);
    case Remote(s) => r := HttpSigning.Sign(disk, s, input, output, x);
  }
}

=== FILE: storage.dfy ===
/** The shared, mutable file system behind `FileManager.default`, with the
    three changes the pipeline makes to it. */
module Storage {
  import opened Base
  import opened Files
  import opened Extensions

  class Disk {
    var nodes: FileTree

    constructor (initial: FileTree)
      ensures nodes == initial
    {
      nodes := initial;
    }

    /** `Data.write(to:)`, or a child process writing its `-out` file:
        the item at `p` becomes a regular file holding `data`. */
    method Write(p: Path, data: Bytes)
      modifies this
      ensures nodes == old(nodes)[p := Regular(data)]
    {
      nodes := nodes[p := Regular(data)];
    }

    /** `FileManager.removeItem(at:)`: deletes `p` and everything below it. */
    method Remove(p: Path)
      modifies this
      ensures nodes == RemoveTree(old(nodes), p)
    {
      nodes := RemoveTree(nodes, p);
    }

    /** `FileManager.createDirectory(at:withIntermediateDirectories: true)`:
        succeeds when `p` is free or already a directory, fails when a file
        is in the way. */
    method CreateDirectory(p: Path) returns (r: Outcome)
      modifies this
      ensures r.Pass? <==> !IsFile(old(nodes), p)
      ensures r.Fail? ==> r.error == CannotCreateDirectory(p)
      ensures nodes == if r.Pass? then old(nodes)[p := Directory] else old(nodes)
    {
      if IsFile(nodes, p) {
        r := Fail(CannotCreateDirectory(p));
      } else {
        nodes := nodes[p := Directory];
        r := Pass;
      }
    }
  }
}
